=== FILE: README.md ===
# Rational numbers: a verified model of `Rational.java`

This project models the `Rational` class of `src/Rational.java`, an immutable
rational number stored as a pair of unbounded integers (`BigInteger num, den`).
It covers:

- construction and `simplify`;
- structural `equals`;
- `add`, `sub`, `mul`, `div`, `abs`, `signum` and `pow`, with their `long` overloads;
- `compareTo` and the twelve relational helpers on `Rational` and `long` arguments;
- `isInt` and `toIntString`;
- the two digit-by-digit expansions `toBinaryString` and `toDoubleString`.

The model follows the code as written. In particular `mul`, `div`, `abs` and
`pow` do not simplify their results: they write the fields of a fresh
`Rational(1)` directly. `mul` and `div` also divide only one factor by each
of their two gcds.

So the class comment's promise ("simplest form, the denominator is never
negative") holds only for some operations. The model states two invariants:

- `Canonical` (lowest terms, positive denominator). `add`, `sub` and the constructors keep it.
- `Reachable` (non-zero denominator, zero stored as 0/1). Every operation keeps it.

Where the code departs from its documentation, concrete lemmas state the actual results.

Modules, one file each:

- `NumberTheory` (`number_theory.dfy`): `BigInteger.gcd` as the gcd of absolute values, with gcd(0, 0) = 0. `BigInteger.divide` as truncating division (`Quot`). `BigInteger.pow`, divisibility, Bézout, and coprimality of products and powers.
- `RealFacts` (`real_facts.dfy`): `Frac(n, d)`, the exact real `n / d`, with the cross-multiplication, sum, product and floor facts the value proofs need.
- `Rationals` (`rational.dfy`): the data model `Rat(num, den)`, the `Result`/`Error` types for the throwing paths, and the construction and arithmetic operations.
- `Ordering` (`ordering.dfy`): `compareTo` and the relational helpers.
- `DigitStrings` (`digit_strings.dfy`): numerals. This covers `BigInteger.toString`, `Long.toBinaryString` (two's complement for negative longs) and reading numerals back.
- `Conversions` (`conversions.dfy`): `isInt`, `toIntString` and the two expansions. An independent reference expansion is computed on exact reals with `Floor`.

The Java exceptions become `Err` values:

- `IllegalArgumentException`: zero denominator, zero divisor, bad exponent.
- `UnsupportedOperationException`: `toIntString` of a non-integer.
- `NumberFormatException`: `Long.parseLong` in `toBinaryString`.
- `ArithmeticException`: `longValueExact` in `toDoubleString`.

The class documentation names no exception for division by zero. The code
throws `IllegalArgumentException`, and the model follows the code.

`Gcd`, `Quot`, `Frac`, `Floor`, `Shift` and `Step` are each wrapped in a
one-step indirection (`GcdAt`, `QuotAt`, ...). Proofs therefore see their
definitions only through the matching `...Is` lemma. This keeps the solver
away from nonlinear arithmetic it does not need, and it does not change what
these functions compute.

## Model

| member | source | states |
|---|---|---|
| NumberTheory.GcdGreatest | src/Rational.java:60 | Every common divisor of a and b divides `Gcd(a, b)`, so together with GcdDivides it is the greatest common divisor that `BigInteger.gcd` returns. |
| NumberTheory.GcdDivides | src/Rational.java:60-62 | When a and b are not both zero, the gcd is positive and divides both. So the divisions in `simplify` are exact. |
| NumberTheory.CoprimeAfterDivision | src/Rational.java:60-62 | Dividing both numbers by their gcd leaves them coprime, which is the heart of `simplify`. |
| NumberTheory.QuotTruncates | src/Rational.java:61-62 | `Quot` truncates toward zero, as `BigInteger.divide` does: the remainder a − b·Quot(a, b) is smaller than b in magnitude and, when non-zero, has the sign of a. |
| NumberTheory.QuotExact | src/Rational.java:61-62 | When b divides a, `Quot(a, b)` times b gives back a. |
| NumberTheory.CoprimePow | src/Rational.java:216-218 | Powers of coprime integers are coprime, so `pow` of a canonical value stays in lowest terms. |
| Rationals.Simplify | src/Rational.java:55-67 | The result is canonical: denominator > 0 and gcd(num, den) = 1, which makes zero 0/1. It denotes the same number (num_out·den_in = num_in·den_out). Its denominator divides the input's. |
| Rationals.New | src/Rational.java:21-26 | `new Rational(n, d)` fails with IllegalArgument exactly when d = 0. Otherwise it is canonical and its value is n/d. |
| Rationals.FromLong | src/Rational.java:32-35 | `new Rational(n)` is canonical and has value n. |
| Rationals.FromLongIsNew | src/Rational.java:28-35 | `new Rational(n)` equals `new Rational(n, 1)`. |
| Rationals.NewScaled | src/Rational.java:21-26 | `new Rational(a·k, b·k)` equals `new Rational(a, b)` for every a, b and k ≠ 0. When b is 0, both fail with IllegalArgument. |
| Rationals.CanonicalUnique | src/Rational.java:10-14 | Two canonical pairs that denote the same number are the same pair. |
| Rationals.CanonicalIsReachable | src/Rational.java:10-14 | Simplest form implies a non-zero denominator and zero stored as 0/1. |
| Rationals.EqualsIsValueEquality | src/Rational.java:69-75 | On canonical values, field-wise `equals` holds exactly when the two values are equal. |
| Rationals.Add | src/Rational.java:80-86 | If one operand is structurally 0/1, the result is the other operand unchanged. Otherwise it is canonical. The value is always the exact sum. Canonical and reachable inputs give results of the same kind. |
| Rationals.AddCommutative | src/Rational.java:80-86 | For every valid pair, including the non-canonical results of `mul` and `div`, x.add(y) and y.add(x) are the same pair. |
| Rationals.AddAssociative | src/Rational.java:80-86 | On canonical operands (x.add(y)).add(z) and x.add(y.add(z)) are the same pair. |
| Rationals.AddNotAssociative | src/Rational.java:80-86 | On the non-canonical 2/2 that `mul` returns, associativity fails structurally: (2/2 + −1/1) + 1/1 is 1/1, but 2/2 + (−1/1 + 1/1) is 2/2. |
| Rationals.Sub | src/Rational.java:91-97 | The value is the exact difference. 0 − y is (−num)/den of y, obtained through `y.mul(-1)`. x − 0 is x itself, unchanged. For a non-zero x and a non-zero numerator in y the result is canonical. Positive denominators stay positive. Canonical and reachable inputs give results of the same kind. |
| Rationals.SubSelf | src/Rational.java:91-97 | `x.sub(x)` is 0/1 for every reachable x. |
| Rationals.NegateFacts | src/Rational.java:96 | Negating the numerator negates the value and keeps a canonical pair canonical. |
| Rationals.Mul | src/Rational.java:102-111 | A zero operand gives 0/1. Otherwise value × gcd1 = (product of values) × gcd2, with gcd1 = gcd(x.den, y.num) and gcd2 = gcd(x.num, y.den). So the value is the true product only when gcd1 = gcd2. Two positive denominators give a positive denominator. Reachability is kept. |
| Rationals.CrossCancelledProduct | src/Rational.java:105-110 | The cross-cancelled pair has a non-zero denominator and the scaled product value. It is reachable for reachable operands. |
| Rationals.MulByMinusOne | src/Rational.java:197-199 | `x.mul(-1)` negates only the numerator (0/1 for a zero x). `x.mul(1)` is x itself. |
| Rationals.Div | src/Rational.java:116-128 | A zero dividend gives 0/1 before the divisor is looked at. Otherwise the result is an error (IllegalArgument) exactly when the divisor is 0/1. A result has value × gcd(x.den, y.den) = ± (x / y) × gcd(x.num, y.num), negated when the divisor's numerator is negative. For operands with positive denominators and non-zero numerators, the result's denominator is negative exactly when the divisor is negative. Reachability is kept. |
| Rationals.CrossCancelledQuotient | src/Rational.java:119-127 | The cross-cancelled quotient, followed by `mul(-1)` for a divisor with a negative numerator, has that scaled and signed value. It is reachable for reachable operands. |
| Rationals.QuotientSign | src/Rational.java:121-126 | With positive denominators, the quotient's denominator x.den · (y.num / gcd2) has the sign of y.num, and `mul(-1)` leaves it in place. |
| Rationals.DivByOne | src/Rational.java:116-118 | `x.div(1)` is x itself, and `0.div(0)` is 0/1. |
| Rationals.Abs | src/Rational.java:133-139 | A non-negative numerator returns x itself. Otherwise the result is (−num)/den over the same denominator. For a positive denominator the value is the absolute value. Canonical and reachable pairs stay so. |
| Rationals.Signum | src/Rational.java:144-146 | The result is in {−1, 0, 1} and is the sign of the numerator. It is 0 exactly for value 0. With a positive denominator it is the sign of the value. |
| Rationals.Power | src/Rational.java:212-220 | A negative exponent, and 0^0, give IllegalArgument. Any other exponent 0 gives 1/1. For e > 0 the result's value is the e-th power of x's value. The result is canonical for a canonical base, has a positive denominator when x has one, and is reachable for a reachable x. |
| Rationals.PowValue | src/Rational.java:217-218 | num^e / den^e is (num/den)^e, and den^e ≠ 0. |
| Rationals.AddLong | src/Rational.java:183-185 | `add(long)` has value x + n and keeps canonical and reachable pairs so. |
| Rationals.SubLong | src/Rational.java:190-192 | `sub(long)` has value x − n. For a positive denominator its denominator is positive and divides x's. |
| Rationals.MulLong | src/Rational.java:197-199 | `mul(long)` keeps x's denominator for non-zero operands, and value × gcd(x.den, n) = x·n. So the value is the true product only when gcd(x.den, n) = 1. |
| Rationals.DivLong | src/Rational.java:204-206 | `div(long)` fails exactly for n = 0 and a non-zero dividend. Otherwise its value is ± (x / n) × gcd(x.num, n), negated for n < 0. |
| Rationals.MulHalfByTwo | src/Rational.java:105-110 | `(1/2).mul(2)` is 1/2, not the true product 1. |
| Rationals.MulNotCanonical | src/Rational.java:105-110 | `(2/1).mul(1/4)` is the non-canonical 2/2. |
| Rationals.MulNotCommutative | src/Rational.java:105-110 | `(1/2).mul(2/1)` is 1/2, but `(2/1).mul(1/2)` is 2/1. |
| Rationals.DivByNegative | src/Rational.java:10-14 | `new Rational(1).div(new Rational(-1))` is −1/−1: a negative denominator, and value 1 instead of −1. |
| Rationals.DivThenMulNotInverse | src/Rational.java:116-128 | `(1/2).div(2)` is 1/4, yet `(1/4).mul(2)` is 1/4 again. |
| Ordering.CompareTo | src/Rational.java:151-154 | The result is in {−1, 0, 1}, and 0 on structural equality. When both denominators are positive, or both numerators are non-zero (then `sub` re-simplifies), it is the sign of x − y: negative, zero or positive exactly as x <, =, > y. |
| Ordering.CompareAntisymmetric | src/Rational.java:151-154 | compareTo(x, y) = −compareTo(y, x) for every reachable pair, including negative denominators from `div`. |
| Ordering.CompareTransitive | src/Rational.java:151-154 | For positive denominators, ≤ and < as decided by compareTo are transitive. |
| Ordering.CompareToLong | src/Rational.java:222-224 | `compareTo(long)` is −1, 0 or 1. For a positive denominator, or for a non-zero x and n ≠ 0 (then `sub` re-simplifies), it is negative, zero or positive exactly as the value is below, equal to or above n. |
| Ordering.CompareToLongAgrees | src/Rational.java:222-224 | For every reachable x, `compareTo(long)` equals `compareTo(new Rational(n))`. |
| Ordering.NegativeDenominatorComparesWrongly | src/Rational.java:151-154 | The pair −1/−1 produced by `div` has value 1, yet it compares below 0, both with `compareTo(Rational)` and with `compareTo(long)` (line 223). |
| Ordering.CompareNotTransitive | src/Rational.java:151-154 | Transitivity fails on reachable values: −1/−1 < 0 and 0 < 1/2, yet −1/−1 > 1/2. |
| Ordering.LessThan | src/Rational.java:156-158 | For positive denominators, true exactly when x < y. |
| Ordering.LessThanOrEqualTo | src/Rational.java:160-162 | For positive denominators, true exactly when x ≤ y. |
| Ordering.GreaterThan | src/Rational.java:164-166 | For positive denominators, true exactly when x > y. |
| Ordering.GreaterThanOrEqualTo | src/Rational.java:168-170 | For positive denominators, true exactly when x ≥ y. |
| Ordering.EqualTo | src/Rational.java:172-174 | True on structural equality. For positive denominators, true exactly when x = y in value. |
| Ordering.NotEqualTo | src/Rational.java:176-178 | For positive denominators, true exactly when x ≠ y in value. |
| Ordering.LessThanLong | src/Rational.java:226-228 | For a positive denominator, true exactly when x < n. |
| Ordering.LessThanOrEqualToLong | src/Rational.java:230-232 | For a positive denominator, true exactly when x ≤ n. |
| Ordering.GreaterThanLong | src/Rational.java:234-236 | For a positive denominator, true exactly when x > n. |
| Ordering.GreaterThanOrEqualToLong | src/Rational.java:238-240 | For a positive denominator, true exactly when x ≥ n. |
| Ordering.EqualToLong | src/Rational.java:242-244 | For a positive denominator, true exactly when x = n. |
| Ordering.NotEqualToLong | src/Rational.java:246-248 | For a positive denominator, true exactly when x ≠ n. |
| DigitStrings.NatToString | src/Rational.java:291 | A base-b numeral is non-empty, has only base-b digits and no leading zero, and is one character long exactly for n < b. |
| DigitStrings.NatToStringRoundTrip | src/Rational.java:291 | Reading the numeral of n back gives n. |
| DigitStrings.IntToStringRoundTrip | src/Rational.java:291 | `BigInteger.toString` starts with '-' exactly for negatives, and parsing it back gives n. |
| DigitStrings.LongToBinaryRoundTrip | src/Rational.java:304 | `Long.toBinaryString` reads back as n, or as n + 2^64 for a negative n. |
| Conversions.IsIntIffInteger | src/Rational.java:285-287 | On canonical values, `isInt` (den = 1) holds exactly when the value is an integer. |
| Conversions.ToIntString | src/Rational.java:289-292 | Fails with UnsupportedOperation exactly when `isInt` is false. Otherwise it is the decimal numeral of the value. |
| Conversions.Render | src/Rational.java:304 | In binary here, and in decimal at line 329, a non-negative integer part is printed as its base-2 or base-10 numeral. A value below the base is printed as a single digit. |
| Conversions.ToBinaryString | src/Rational.java:297-317 | The only failure is NumberFormat (`Long.parseLong`). |
| Conversions.ToDoubleString | src/Rational.java:322-341 | The only failure is Arithmetic (`longValueExact`). |
| Conversions.ExpandShape | src/Rational.java:297-341 | For a positive denominator the expansion fails exactly when the integer part exceeds the long range. Otherwise it starts with '-' (iff negative) and the integer part. With precision > 0 it continues with '.' and exactly `precision` base digits; otherwise it ends there. |
| Conversions.ExpandExact | src/Rational.java:297-341 | When the denominator is coprime to the base, the expansion equals the reference expansion: the sign, the floor of the absolute value, and the truncated base-b digits of the exact number. |
| Conversions.FractionDigitsShape | src/Rational.java:309-314 | In both digit loops (also lines 334-338), from a state 0 ≤ r < base, the digit loop yields exactly `count` one-character base digits. |
| Conversions.FractionDigitsExact | src/Rational.java:309-314 | With the denominator coprime to the base, either digit loop (also lines 334-338) yields the truncated expansion of the exact value. |
| Conversions.StepExact | src/Rational.java:311 | With the denominator coprime to the base, one step maps r to (r − ⌊r⌋)·base exactly and keeps coprimality. |
| Conversions.StepState | src/Rational.java:336 | One step from a non-negative r keeps 0 ≤ value < base with a positive denominator. |
| Conversions.QuotIsFloor | src/Rational.java:329 | For a non-negative pair with a positive denominator, num / den is the floor of the value. |
| Conversions.AbsolutePart | src/Rational.java:300-303 | After the sign step (also lines 325-328), r is the absolute value of x over the same denominator, and, for the positive denominator it requires, a '-' is written exactly for negative values. |
| Conversions.RepeatingDigits | src/Rational.java:334-338 | A state that one step maps to itself repeats the same digit `count` times. |
| Conversions.DecimalOfThirtyThreeQuarters | src/Rational.java:319-322 | `toDoubleString(2)` of 33/4 is "8.11", while the documented "8.25" is the exact expansion. |
| Conversions.BinaryOfThirtyThreeQuarters | src/Rational.java:294-297 | `toBinaryString(2)` of 33/4 is "1000.00" (and "-1000.00" for −33/4), while the documented "1000.01" is the exact expansion. |
| Conversions.DecimalOfOneThird | src/Rational.java:322-341 | `toDoubleString(4)` of 1/3 is "0.3333", the exact truncated expansion. |

## Left out

- `compareTo(double)` and its six relational helpers (src/Rational.java:250-276) compare through `new BigDecimal(double)`, which carries IEEE floating-point semantics.
- `toBigDecimal` (src/Rational.java:281-283) only delegates to `BigDecimal.divide` with HALF_DOWN rounding, a library routine outside this model.
- The progress `System.out.println` every 100 binary digits (src/Rational.java:313) is console output with no effect on the result.
- Java's 64-bit arguments are not modelled. The constructors and `long` overloads take unbounded integers, and `pow`'s `int` exponent is an unbounded integer. The long range matters only where the code checks it: the integer parts in the expansions (`InLong`).
- `equals` is modelled as field comparison (`Equals`). Reference identity, the `null` check and the `instanceof` check (src/Rational.java:70-72) are Java object plumbing.
- `getNumerator` and `getDenominator` (src/Rational.java:44-50) are the fields `num` and `den` of the datatype.
- Conversions.ExpandShape: states the shape only for a positive denominator. A negative denominator (reachable only through `div`) gives a non-positive integer part, possibly with the wrong sign: −1/−2 (value 1/2) prints as "-0", and a negative integer part is printed by `Long.toBinaryString` in two's complement. `Expand` computes that case, but no lemma describes it.
- Conversions.ExpandExact: requires the denominator to be coprime to the base. Otherwise `mul(base)` cancels a common factor and the digits are not the true expansion; the 33/4 lemmas show this.
- Rationals.AddAssociative: holds only for canonical operands. The zero shortcut returns a non-canonical operand such as 2/2 unnormalised, so on such values the two groupings can give different pairs of equal value; Rationals.AddNotAssociative shows this.
- Rationals.Power: for a non-canonical base, states the value, the sign of the denominator and reachability, but not the pair num^e/den^e itself.
- Rationals.Div: states the value only up to the two gcd factors, as `Mul` does. For a divisor with a positive numerator the result is the exact quotient only when they are equal. For a divisor with a negative numerator it is never the exact quotient, because `mul(-1)` flips the sign a second time: Rationals.DivByNegative has both gcds equal to 1 and gives 1 instead of −1.
- Ordering.CompareTo: relates the result to value order for positive denominators and for two non-zero operands. The remaining case is a comparison with 0/1, where `sub` returns an operand unsimplified and `signum` reads its numerator. When that operand has a negative denominator (from `div`), the result is wrong; Ordering.NegativeDenominatorComparesWrongly shows this. The relational helpers state value order only for positive denominators.
- Ordering.CompareToLong: relates the result to value order for a positive denominator and for a non-zero x with n ≠ 0. The remaining case is a negative denominator (from `div`) compared with 0: `sub` returns x unchanged and `signum` reads its numerator, so −1/−1 compares below 0; Ordering.NegativeDenominatorComparesWrongly shows this.

=== FILE: conversions.dfy ===
/** isInt, toIntString, and the positional expansions toBinaryString and
    toDoubleString, which share one algorithm: print the sign, print the
    integer part, then repeatedly drop the integer part with sub(long),
    shift one digit with mul(long), and print the next integer part. */
module Conversions {
  import opened NumberTheory
  import opened RealFacts
  import opened Rationals
  import opened DigitStrings

  // ---------------------------------------------------------------------
  // isInt and toIntString

  /** isInt(): the denominator is exactly 1. */
  predicate IsInt(x: Rat) {
    x.den == 1
  }

  /** On canonical values, isInt holds exactly for integer values. */
  lemma IsIntIffInteger(x: Rat)
    requires Canonical(x)
    ensures IsInt(x) <==> Value(x) == Floor(Value(x)) as real
  {
    var k := Floor(Value(x));
    FloorIs(Value(x));
    if IsInt(x) {
      FracIs(x.num, 1);
    }
    if Value(x) == k as real {
      FracIs(k, 1);
      assert Value(x) == Frac(k, 1);
      FracCross(x.num, x.den, k, 1);
      assert x.num == x.den * k;
      DividesMul(x.den, k);
      var s, t := Bezout(x.num, x.den);
      DividesSelf(x.den);
      DividesCombine(x.den, x.num, x.den, s, t);
      DividesOne(x.den);
    }
  }

  /** toIntString(): the decimal numeral of the numerator, or
      UnsupportedOperationException when the denominator is not 1. */
  function ToIntString(x: Rat): (r: Result<string>)
    ensures r.Err? <==> !IsInt(x)
    ensures r.Err? ==> r.error == UnsupportedOperation
    ensures r.Ok? ==> Value(x) == x.num as real && ParseInt(r.value) == Some(x.num)
  {
    if !IsInt(x) then
      Err(UnsupportedOperation)
    else
      FracIs(x.num, 1);
      IntToStringRoundTrip(x.num);
      Ok(IntToString(x.num))
  }

  // ---------------------------------------------------------------------
  // The expansion algorithm

  /** The two radices the class prints in. */
  predicate IsBase(base: int) {
    base == 2 || base == 10
  }

  /** What an integer part outside the long range raises: Long.parseLong
      fails first in toBinaryString, longValueExact in toDoubleString. */
  function Overflow(base: int): Error {
    if base == 2 then NumberFormat else Arithmetic
  }

  /** How one integer part is appended: Long.toBinaryString in base 2,
      the decimal numeral in base 10. */
  function Render(n: int, base: int): (s: string)
    requires IsBase(base) && InLong(n)
    ensures n >= 0 ==> s == NatToString(n, base)
    ensures 0 <= n < base ==> s == [DigitChar(n)]
  {
    if base == 2 then LongToBinaryString(n) else IntToString(n)
  }

  /** r.sub(r.num / r.den).mul(base). Like Gcd and Quot, it is sealed
      behind a fuel argument so that the loop lemmas reason about Step
      through StepIs only, without the arithmetic of mul in every proof. */
  function Step(r: Rat, base: int): (s: Rat)
    requires Valid(r)
    ensures Valid(s)
  {
    StepAt(r, base, 1)
  }

  function StepAt(r: Rat, base: int, k: nat): (s: Rat)
    requires Valid(r)
    ensures Valid(s)
  {
    if k == 0 then MulLong(SubLong(r, Quot(r.num, r.den)), base) else StepAt(r, base, 0)
  }

  lemma StepIs(r: Rat, base: int)
    requires Valid(r)
    ensures Step(r, base) == MulLong(SubLong(r, Quot(r.num, r.den)), base)
  {
    assert StepAt(r, base, 0) == MulLong(SubLong(r, Quot(r.num, r.den)), base);
  }

  /** The digit loop: count digits, each the truncated quotient of r
      rendered on its own, with r advanced by Step after each. */
  function FractionDigits(r: Rat, base: int, count: nat): (res: Result<string>)
    requires Valid(r) && IsBase(base)
    ensures res.Err? ==> res.error == Overflow(base)
    decreases count
  {
    if count == 0 then
      Ok("")
    else
      var d := Quot(r.num, r.den);
      if !InLong(d) then
        Err(Overflow(base))
      else
        match FractionDigits(Step(r, base), base, count - 1)
        case Err(e) => Err(e)
        case Ok(rest) => Ok(Render(d, base) + rest)
  }

  /** The shared body of toBinaryString and toDoubleString: a '-' and
      mul(-1) for a negative numerator, the integer part, and for a
      positive precision a '.' followed by precision digits. */
  function Expand(x: Rat, base: int, precision: int): (res: Result<string>)
    requires Valid(x) && IsBase(base)
    ensures res.Err? ==> res.error == Overflow(base)
  {
    var neg := Signum(x) < 0;
    var r := if neg then MulLong(x, -1) else x;
    var ip := Quot(r.num, r.den);
    if !InLong(ip) then
      Err(Overflow(base))
    else
      var head := (if neg then "-" else "") + Render(ip, base);
      if precision <= 0 then
        Ok(head)
      else
        match FractionDigits(Step(r, base), base, precision)
        case Err(e) => Err(e)
        case Ok(ds) => Ok(head + "." + ds)
  }

  /** toBinaryString(int precision). */
  function ToBinaryString(x: Rat, precision: int): (res: Result<string>)
    requires Valid(x)
    ensures res.Err? ==> res.error == NumberFormat
  {
    Expand(x, 2, precision)
  }

  /** toDoubleString(int precision). */
  function ToDoubleString(x: Rat, precision: int): (res: Result<string>)
    requires Valid(x)
    ensures res.Err? ==> res.error == Arithmetic
  {
    Expand(x, 10, precision)
  }

  // ---------------------------------------------------------------------
  // The exact expansion, as a reference

  /** The floor of v, sealed behind a fuel argument like Gcd and Quot so
      that the solver meets the mixed integer and real arithmetic of
      floor only where FloorIs brings it in. */
  function Floor(v: real): int {
    FloorAt(v, 1)
  }

  function FloorAt(v: real, k: nat): int {
    if k == 0 then v.Floor else FloorAt(v, 0)
  }

  lemma FloorIs(v: real)
    ensures Floor(v) == v.Floor
  {
    assert FloorAt(v, 0) == v.Floor;
  }

  /** The fractional part of v moved one digit up: (v - floor v) * base.
      Sealed in the same way as Floor. */
  function Shift(v: real, base: int): real {
    ShiftAt(v, base, 1)
  }

  function ShiftAt(v: real, base: int, k: nat): real {
    if k == 0 then (v - Floor(v) as real) * base as real else ShiftAt(v, base, 0)
  }

  lemma ShiftIs(v: real, base: int)
    ensures Shift(v, base) == (v - Floor(v) as real) * base as real
  {
    assert ShiftAt(v, base, 0) == (v - Floor(v) as real) * base as real;
  }

  lemma ShiftFacts(v: real, base: int)
    requires IsBase(base) && 0.0 <= v
    ensures 0 <= Floor(v)
    ensures v < base as real ==> Floor(v) < base
    ensures 0.0 <= Shift(v, base) < base as real
  {
    FloorIs(v);
    ShiftIs(v, base);
    var f := v - Floor(v) as real;
    assert 0.0 <= f < 1.0;
    assert f * base as real < 1.0 * base as real;
  }

  /** The first count base-b digits of v in [0, b): its floor, then the
      digits of the shifted fractional part. */
  function RefFraction(v: real, base: int, count: nat): (s: string)
    requires IsBase(base) && 0.0 <= v < base as real
    ensures |s| == count && AllDigits(s, base)
    decreases count
  {
    if count == 0 then
      ""
    else
      ShiftFacts(v, base);
      [DigitChar(Floor(v))] + RefFraction(Shift(v, base), base, count - 1)
  }

  /** The sign and the integer part of |v| in base b. */
  function RefHead(v: real, base: int): string
    requires IsBase(base)
  {
    ShiftFacts(RealAbs(v), base);
    (if v < 0.0 then "-" else "") + NatToString(Floor(RealAbs(v)), base)
  }

  /** The exact expansion of v with precision fractional digits. */
  function RefExpansion(v: real, base: int, precision: int): string
    requires IsBase(base)
  {
    var a := RealAbs(v);
    ShiftFacts(a, base);
    RefHead(v, base) +
      if precision <= 0 then "" else "." + RefFraction(Shift(a, base), base, precision)
  }

  // ---------------------------------------------------------------------
  // What the algorithm computes

  /** The loop state for a positive denominator: a value in [0, base). */
  predicate DigitState(r: Rat, base: int) {
    r.den > 0 && r.num >= 0 && Value(r) < base as real
  }

  /** The quotient printed for a non-negative r is its floor. */
  lemma QuotIsFloor(r: Rat)
    requires r.den > 0 && r.num >= 0
    ensures Quot(r.num, r.den) == Floor(Value(r))
  {
    FloorIs(Value(r));
    QuotNonneg(r.num, r.den);
    FracFloor(r.num, r.den);
  }

  /** One step from a non-negative r lands in [0, base). */
  lemma StepState(r: Rat, base: int)
    requires IsBase(base) && r.den > 0 && r.num >= 0
    ensures DigitState(Step(r, base), base)
    ensures Gcd(r.den, base) == 1 ==>
      Gcd(Step(r, base).den, base) == 1 &&
      Value(Step(r, base)) == Value(SubLong(r, Quot(r.num, r.den))) * base as real
  {
    var d := Quot(r.num, r.den);
    QuotIsFloor(r);
    FractionalPart(r, d);
    var t := SubLong(r, d);
    ShiftState(t, base);
    StepIs(r, base);
    if Gcd(r.den, base) == 1 {
      CoprimeDivisor(t.den, r.den, base);
    }
  }

  /** When the denominator is coprime to the base, a step is exact and
      keeps the denominator coprime. */
  lemma StepExact(r: Rat, base: int)
    requires IsBase(base) && r.den > 0 && r.num >= 0 && Gcd(r.den, base) == 1
    ensures Gcd(Step(r, base).den, base) == 1
    ensures Value(Step(r, base)) == Shift(Value(r), base)
  {
    ShiftIs(Value(r), base);
    var d := Quot(r.num, r.den);
    QuotIsFloor(r);
    FractionalPart(r, d);
    StepState(r, base);
    ScaleEqual(Value(SubLong(r, d)), Value(r) - Floor(Value(r)) as real, base as real);
  }

  lemma ScaleEqual(a: real, b: real, c: real)
    requires a == b
    ensures a * c == b * c
  {
  }

  /** Subtracting the floor leaves a value in [0, 1) over a positive
      denominator that divides the old one. */
  lemma FractionalPart(r: Rat, d: int)
    requires r.den > 0 && d == Floor(Value(r))
    ensures SubLong(r, d).den > 0 && Divides(SubLong(r, d).den, r.den)
    ensures 0.0 <= Value(SubLong(r, d)) < 1.0
    ensures Value(SubLong(r, d)) == Value(r) - d as real
  {
    FloorIs(Value(r));
  }

  /** mul(base) from a value in [0, 1) lands in [0, base); it is exact when
      the denominator is coprime to the base. */
  lemma ShiftState(t: Rat, base: int)
    requires IsBase(base) && t.den > 0 && 0.0 <= Value(t) < 1.0
    ensures DigitState(MulLong(t, base), base)
    ensures Gcd(t.den, base) == 1 ==>
      Gcd(MulLong(t, base).den, base) == 1 && Value(MulLong(t, base)) == Value(t) * base as real
  {
    ShiftRange(t, base);
    if Gcd(t.den, base) == 1 {
      ShiftCoprime(t, base);
    }
  }

  lemma ShiftRange(t: Rat, base: int)
    requires base > 0 && t.den > 0 && 0.0 <= Value(t) < 1.0
    ensures DigitState(MulLong(t, base), base)
  {
    var s := MulLong(t, base);
    var g := Gcd(t.den, base);
    GcdDivides(t.den, base);
    PositiveDenominator(t, base);
    ScaledRange(s, Value(t), g, base);
  }

  lemma PositiveDenominator(t: Rat, n: int)
    requires t.den > 0
    ensures MulLong(t, n).den > 0
  {
  }

  /** A positive-denominator s with s * g == vt * base, g >= 1 and vt in
      [0, 1) lies in [0, base). */
  lemma ScaledRange(s: Rat, vt: real, g: int, base: int)
    requires s.den > 0 && g >= 1 && base > 0 && 0.0 <= vt < 1.0
    requires Value(s) * g as real == vt * base as real
    ensures s.num >= 0 && Value(s) < base as real
  {
    Shrink(Value(s), vt, g as real, base as real);
    SignFacts(s);
  }

  lemma ShiftCoprime(t: Rat, base: int)
    requires IsBase(base) && t.den > 0 && Gcd(t.den, base) == 1
    ensures Gcd(MulLong(t, base).den, base) == 1 && Value(MulLong(t, base)) == Value(t) * base as real
  {
    var s := MulLong(t, base);
    if t.num == 0 {
      assert s == Zero;
      GcdOne(base);
      CoprimeSym(base, 1);
    } else {
      assert s.den == t.den;
    }
  }

  lemma Shrink(vs: real, vt: real, g: real, b: real)
    requires vs * g == vt * b && g >= 1.0 && 0.0 <= vt < 1.0 && b > 0.0
    ensures 0.0 <= vs < b
  {
    var p := vt * b;
    assert 0.0 <= p < b;
    assert vs == p / g;
    assert vs >= 0.0;
    assert vs * (g - 1.0) >= 0.0;
    assert vs <= p;
  }

  /** From a loop state the digit loop never fails and prints count digits
      of the base. */
  lemma {:induction false} FractionDigitsShape(r: Rat, base: int, count: nat)
    requires IsBase(base) && DigitState(r, base)
    ensures FractionDigits(r, base, count).Ok?
    ensures |FractionDigits(r, base, count).value| == count
    ensures AllDigits(FractionDigits(r, base, count).value, base)
    decreases count
  {
    if count > 0 {
      QuotIsFloor(r);
      StepState(r, base);
      ShiftFacts(Value(r), base);
      FractionDigitsShape(Step(r, base), base, count - 1);
    }
  }

  /** With a denominator coprime to the base they are the exact digits. */
  lemma {:induction false} FractionDigitsExact(r: Rat, base: int, count: nat)
    requires IsBase(base) && DigitState(r, base) && Gcd(r.den, base) == 1
    ensures FractionDigits(r, base, count) == Ok(RefFraction(Value(r), base, count))
    decreases count
  {
    if count > 0 {
      var v, d, s := Value(r), Quot(r.num, r.den), Step(r, base);
      QuotIsFloor(r);
      StepState(r, base);
      StepExact(r, base);
      ShiftFacts(v, base);
      var w := Shift(v, base);
      assert Value(s) == w;
      FractionDigitsExact(s, base, count - 1);
      var rest := RefFraction(w, base, count - 1);
      assert FractionDigits(s, base, count - 1) == Ok(rest);
      assert Render(d, base) == [DigitChar(d)];
      assert FractionDigits(r, base, count) == Ok([DigitChar(d)] + rest);
      RefFractionUnfold(v, base, count);
    }
  }

  lemma RefFractionUnfold(v: real, base: int, count: nat)
    requires IsBase(base) && 0.0 <= v < base as real && count > 0
    ensures 0 <= Floor(v) < base
    ensures 0.0 <= Shift(v, base) < base as real
    ensures RefFraction(v, base, count) == [DigitChar(Floor(v))] + RefFraction(Shift(v, base), base, count - 1)
  {
    ShiftFacts(v, base);
  }

  /** For a positive denominator the expansion fails exactly when the
      integer part of |x| exceeds the long range, and otherwise prints the
      sign, the integer part and precision digits of the base. */
  lemma ExpandShape(x: Rat, base: int, precision: int)
    requires x.den > 0 && IsBase(base)
    ensures var res := Expand(x, base, precision);
      var head := RefHead(Value(x), base);
      && (res.Err? <==> Floor(RealAbs(Value(x))) > LongMax)
      && (res.Ok? ==>
            |res.value| == |head| + (if precision > 0 then precision + 1 else 0) &&
            res.value[..|head|] == head &&
            (precision > 0 ==> res.value[|head|] == '.' && AllDigits(res.value[|head| + 1..], base)))
  {
    var r, ip := ExpandUnfold(x, base, precision);
    var head := RefHead(Value(x), base);
    if InLong(ip) && precision > 0 {
      StepState(r, base);
      FractionDigitsShape(Step(r, base), base, precision);
      var ds := FractionDigits(Step(r, base), base, precision).value;
      var out := head + "." + ds;
      assert out[..|head|] == head;
      assert out[|head| + 1..] == ds;
    }
  }

  /** With a denominator coprime to the base (odd for binary, free of 2 and
      5 for decimal) the expansion is exact. */
  lemma ExpandExact(x: Rat, base: int, precision: int)
    requires x.den > 0 && IsBase(base) && Gcd(x.den, base) == 1
    requires Floor(RealAbs(Value(x))) <= LongMax
    ensures Expand(x, base, precision) == Ok(RefExpansion(Value(x), base, precision))
  {
    var r, ip := ExpandUnfold(x, base, precision);
    var a := RealAbs(Value(x));
    ShiftFacts(a, base);
    if precision > 0 {
      var s := Step(r, base);
      StepState(r, base);
      StepExact(r, base);
      assert Value(s) == Shift(a, base);
      FractionDigitsExact(s, base, precision);
      var head, ds := RefHead(Value(x), base), RefFraction(Shift(a, base), base, precision);
      assert FractionDigits(s, base, precision) == Ok(ds);
      assert head + "." + ds == head + ("." + ds);
      assert RefExpansion(Value(x), base, precision) == head + ("." + ds);
    } else {
      var head := RefHead(Value(x), base);
      assert head + "" == head;
    }
  }

  /** Expand after the sign and the integer part: r is |x| over the same
      denominator and ip its integer part. */
  lemma ExpandUnfold(x: Rat, base: int, precision: int) returns (r: Rat, ip: int)
    requires x.den > 0 && IsBase(base)
    ensures r.den == x.den && r.num >= 0 && Value(r) == RealAbs(Value(x))
    ensures ip == Floor(RealAbs(Value(x))) && 0 <= ip
    ensures !InLong(ip) ==> Expand(x, base, precision) == Err(Overflow(base))
    ensures InLong(ip) && precision <= 0 ==> Expand(x, base, precision) == Ok(RefHead(Value(x), base))
    ensures InLong(ip) && precision > 0 ==>
      Expand(x, base, precision) ==
        match FractionDigits(Step(r, base), base, precision)
        case Err(e) => Err(e)
        case Ok(ds) => Ok(RefHead(Value(x), base) + "." + ds)
  {
    r := AbsolutePart(x);
    ip := Quot(r.num, r.den);
    QuotIsFloor(r);
    ShiftFacts(Value(r), base);
    if InLong(ip) {
      assert Render(ip, base) == NatToString(ip, base);
    }
  }

  /** The operand after the sign has been printed: |x| over the same
      denominator. */
  lemma AbsolutePart(x: Rat) returns (r: Rat)
    requires x.den > 0
    ensures r == if Signum(x) < 0 then MulLong(x, -1) else x
    ensures r.den == x.den && r.num >= 0
    ensures Value(r) == RealAbs(Value(x))
    ensures Signum(x) < 0 <==> Value(x) < 0.0
  {
    SignFacts(x);
    NegateFacts(x);
    MulByMinusOne(x);
    r := if Signum(x) < 0 then MulLong(x, -1) else x;
  }

  // ---------------------------------------------------------------------
  // Where the output departs from the documentation

  /** 33/4 prints as 8.11 in decimal, not 8.25: mul(10) on 1/4 cancels
      gcd(4, 10) == 2 from the multiplier only and yields 5/4, whose
      integer part is 1 at every later step. */
  lemma DecimalOfThirtyThreeQuarters()
    ensures ToDoubleString(Rat(33, 4), 2) == Ok("8.11")
    ensures RefExpansion(8.25, 10, 2) == "8.25"
  {
    QuarterQuotients();
    StepQuarterDecimal();
    StepFiveQuartersDecimal();
    RepeatingDigits(Rat(5, 4), 10, 2, 1);
    TwoDigits(FractionDigits(Rat(5, 4), 10, 2).value, '1');
    assert Render(8, 10) == "8";
    ExpandOf(Rat(33, 4), 10, 2, Rat(33, 4), 8, "11");
    ExampleStrings();
    RefOfEightAndAQuarter(10);
  }

  /** 33/4 prints as 1000.00 in binary, not the documented 1000.01:
      mul(2) on 1/4 cancels the 2 and leaves 1/4 in place. */
  lemma BinaryOfThirtyThreeQuarters()
    ensures ToBinaryString(Rat(33, 4), 2) == Ok("1000.00")
    ensures ToBinaryString(Rat(-33, 4), 2) == Ok("-1000.00")
    ensures RefExpansion(8.25, 2, 2) == "1000.01"
  {
    QuarterQuotients();
    StepQuarterBinary();
    StepOneQuarterBinary();
    RepeatingDigits(Rat(1, 4), 2, 2, 0);
    TwoDigits(FractionDigits(Rat(1, 4), 2, 2).value, '0');
    BinaryOfEight();
    ExpandOf(Rat(33, 4), 2, 2, Rat(33, 4), 8, "00");
    ExampleStrings();
    MulByMinusOne(Rat(-33, 4));
    ExpandOf(Rat(-33, 4), 2, 2, Rat(33, 4), 8, "00");
    ExampleStrings();
    RefOfEightAndAQuarter(2);
  }

  /** 1/3 has a denominator coprime to 10 and prints exactly. */
  lemma DecimalOfOneThird()
    ensures ToDoubleString(Rat(1, 3), 4) == Ok("0.3333")
    ensures RefExpansion(1.0 / 3.0, 10, 4) == "0.3333"
  {
    QuotIs(1, 3);
    QuotIs(10, 3);
    StepThirdDecimal();
    StepTenThirdsDecimal();
    RepeatingDigits(Rat(10, 3), 10, 4, 3);
    FourDigits(FractionDigits(Rat(10, 3), 10, 4).value, '3');
    assert Render(0, 10) == "0";
    ExpandOf(Rat(1, 3), 10, 4, Rat(1, 3), 0, "3333");
    ExampleStrings();
    RefOfOneThird();
  }

  lemma ExampleStrings()
    ensures "" + "8" + "." + "11" == "8.11"
    ensures "" + "1000" + "." + "00" == "1000.00"
    ensures "-" + "1000" + "." + "00" == "-1000.00"
    ensures "" + "0" + "." + "3333" == "0.3333"
  {
  }

  lemma TwoDigits(ds: string, c: char)
    requires |ds| == 2 && ds[0] == c && ds[1] == c
    ensures ds == [c, c]
  {
  }

  lemma FourDigits(ds: string, c: char)
    requires |ds| == 4 && ds[0] == c && ds[1] == c && ds[2] == c && ds[3] == c
    ensures ds == [c, c, c, c]
  {
  }

  // Single steps of the examples above, evaluated one operation at a time.

  lemma QuarterQuotients()
    ensures Quot(33, 4) == 8 && Quot(5, 4) == 1 && Quot(1, 4) == 0
  {
    QuotIs(33, 4);
    QuotIs(5, 4);
    QuotIs(1, 4);
  }

  lemma SubEight()
    ensures SubLong(Rat(33, 4), 8) == Rat(1, 4)
  {
    GcdIs(-8, 1);
    QuotIs(-8, 1);
    QuotIs(1, 1);
    GcdIs(1, 4);
    QuotIs(4, 1);
  }

  lemma SubOne()
    ensures SubLong(Rat(5, 4), 1) == Rat(1, 4)
  {
    GcdIs(-1, 1);
    QuotIs(-1, 1);
    QuotIs(1, 1);
    GcdIs(1, 4);
    QuotIs(4, 1);
  }

  lemma MulTen()
    ensures MulLong(Rat(1, 4), 10) == Rat(5, 4)
  {
    GcdIs(4, 10);
    QuotIs(10, 2);
    GcdIs(1, 1);
    QuotIs(1, 1);
  }

  lemma MulTwo()
    ensures MulLong(Rat(1, 4), 2) == Rat(1, 4)
  {
    GcdIs(4, 2);
    QuotIs(2, 2);
    GcdIs(1, 1);
    QuotIs(1, 1);
  }

  lemma StepOf(r: Rat, base: int, d: int, t: Rat, u: Rat)
    requires Valid(r) && Quot(r.num, r.den) == d && SubLong(r, d) == t && MulLong(t, base) == u
    ensures Step(r, base) == u
  {
    StepIs(r, base);
  }

  lemma SubZeroThird()
    ensures SubLong(Rat(1, 3), 0) == Rat(1, 3)
  {
  }

  lemma SubThree()
    ensures SubLong(Rat(10, 3), 3) == Rat(1, 3)
  {
    GcdIs(-3, 1);
    QuotIs(-3, 1);
    QuotIs(1, 1);
    GcdIs(1, 3);
    QuotIs(3, 1);
  }

  lemma MulTenThird()
    ensures MulLong(Rat(1, 3), 10) == Rat(10, 3)
  {
    GcdIs(3, 10);
    QuotIs(10, 1);
    GcdIs(1, 1);
    QuotIs(1, 1);
  }

  lemma StepThirdDecimal()
    ensures Step(Rat(1, 3), 10) == Rat(10, 3)
  {
    QuotIs(1, 3);
    SubZeroThird();
    MulTenThird();
    StepOf(Rat(1, 3), 10, 0, Rat(1, 3), Rat(10, 3));
  }

  lemma StepTenThirdsDecimal()
    ensures Step(Rat(10, 3), 10) == Rat(10, 3)
  {
    QuotIs(10, 3);
    SubThree();
    MulTenThird();
    StepOf(Rat(10, 3), 10, 3, Rat(1, 3), Rat(10, 3));
  }

  lemma StepQuarterDecimal()
    ensures Step(Rat(33, 4), 10) == Rat(5, 4)
  {
    QuarterQuotients();
    SubEight();
    MulTen();
    StepOf(Rat(33, 4), 10, 8, Rat(1, 4), Rat(5, 4));
  }

  lemma StepFiveQuartersDecimal()
    ensures Step(Rat(5, 4), 10) == Rat(5, 4)
  {
    QuarterQuotients();
    SubOne();
    MulTen();
    StepOf(Rat(5, 4), 10, 1, Rat(1, 4), Rat(5, 4));
  }

  lemma StepQuarterBinary()
    ensures Step(Rat(33, 4), 2) == Rat(1, 4)
  {
    QuarterQuotients();
    SubEight();
    MulTwo();
    StepOf(Rat(33, 4), 2, 8, Rat(1, 4), Rat(1, 4));
  }

  lemma StepOneQuarterBinary()
    ensures Step(Rat(1, 4), 2) == Rat(1, 4)
  {
    QuarterQuotients();
    assert SubLong(Rat(1, 4), 0) == Rat(1, 4);
    MulTwo();
    StepOf(Rat(1, 4), 2, 0, Rat(1, 4), Rat(1, 4));
  }

  /** A loop state that Step leaves unchanged prints the same digit at
      every position. */
  lemma {:induction false} RepeatingDigits(r: Rat, base: int, count: nat, d: int)
    requires Valid(r) && IsBase(base) && Quot(r.num, r.den) == d && 0 <= d < base
    requires Step(r, base) == r
    ensures FractionDigits(r, base, count).Ok?
    ensures var ds := FractionDigits(r, base, count).value;
      |ds| == count && forall i :: 0 <= i < count ==> ds[i] == DigitChar(d)
    decreases count
  {
    if count > 0 {
      RepeatingDigits(r, base, count - 1, d);
      var rest := FractionDigits(r, base, count - 1).value;
      FractionDigitsCons(r, base, count, d, r, rest);
    }
  }

  /** One turn of the digit loop. */
  lemma FractionDigitsCons(r: Rat, base: int, count: nat, d: int, u: Rat, rest: string)
    requires Valid(r) && IsBase(base) && count > 0
    requires Quot(r.num, r.den) == d && 0 <= d < base
    requires Step(r, base) == u && FractionDigits(u, base, count - 1) == Ok(rest)
    ensures FractionDigits(r, base, count) == Ok([DigitChar(d)] + rest)
  {
  }

  /** Expand with a positive precision, once the absolute value r, its
      integer part ip and the digits ds are known. */
  lemma ExpandOf(x: Rat, base: int, precision: int, r: Rat, ip: int, ds: string)
    requires Valid(x) && IsBase(base) && precision > 0
    requires r == if Signum(x) < 0 then MulLong(x, -1) else x
    requires Quot(r.num, r.den) == ip && 0 <= ip < base * base * base * base
    requires FractionDigits(Step(r, base), base, precision) == Ok(ds)
    ensures Expand(x, base, precision) == Ok((if Signum(x) < 0 then "-" else "") + Render(ip, base) + "." + ds)
  {
  }

  /** The exact expansions of 8.25 to two places. */
  lemma RefOfEightAndAQuarter(base: int)
    requires IsBase(base)
    ensures base == 10 ==> RefExpansion(8.25, base, 2) == "8.25"
    ensures base == 2 ==> RefExpansion(8.25, base, 2) == "1000.01"
  {
    FloorIs(8.25);
    ShiftIs(8.25, base);
    if base == 10 {
      FloorIs(2.5);
      ShiftIs(2.5, 10);
      FloorIs(5.0);
    } else {
      FloorIs(0.5);
      ShiftIs(0.5, 2);
      FloorIs(1.0);
      BinaryOfEight();
    }
  }

  lemma RefOfOneThird()
    ensures RefExpansion(1.0 / 3.0, 10, 4) == "0.3333"
  {
    FloorIs(1.0 / 3.0);
    ShiftIs(1.0 / 3.0, 10);
    FloorIs(10.0 / 3.0);
    ShiftIs(10.0 / 3.0, 10);
  }
}

=== FILE: digit_strings.dfy ===
/** Rendering integers as digit strings, as BigInteger.toString() (which
    StringBuilder.append uses for a BigInteger) and Long.toBinaryString do,
    together with the parsers that read them back. */
module DigitStrings {

  datatype Option<T> = None | Some(value: T)

  /** The range of a Java long. */
  const LongMin: int := -0x8000_0000_0000_0000
  const LongMax: int := 0x7fff_ffff_ffff_ffff
  const TwoTo64: int := 0x1_0000_0000_0000_0000

  predicate InLong(n: int) {
    LongMin <= n <= LongMax
  }

  function DigitChar(d: nat): (c: char)
    requires d < 10
    ensures '0' <= c <= '9'
  {
    (48 + d) as char
  }

  /** A digit character of the given base. */
  predicate IsDigit(c: char, base: nat) {
    '0' <= c && (c as int) - 48 < base
  }

  function CharValue(c: char): int {
    (c as int) - 48
  }

  predicate AllDigits(s: string, base: nat) {
    forall i :: 0 <= i < |s| ==> IsDigit(s[i], base)
  }

  /** The base-b numeral of n: most significant digit first, no leading
      zeros, "0" for zero. */
  function NatToString(n: nat, base: nat): (s: string)
    requires 2 <= base <= 10
    ensures |s| > 0 && AllDigits(s, base)
    ensures |s| > 1 ==> s[0] != '0'
    ensures n < base <==> |s| == 1
    decreases n
  {
    if n < base then
      [DigitChar(n)]
    else
      NatToString(n / base, base) + [DigitChar(n % base)]
  }

  /** The number a string of base-b digits denotes. */
  function StringToNat(s: string, base: nat): nat
    requires AllDigits(s, base)
    decreases |s|
  {
    if |s| == 0 then 0
    else StringToNat(s[..|s| - 1], base) * base + CharValue(s[|s| - 1])
  }

  /** Reading a numeral back gives the number it was made from. */
  lemma {:induction false} NatToStringRoundTrip(n: nat, base: nat)
    requires 2 <= base <= 10
    ensures StringToNat(NatToString(n, base), base) == n
    decreases n
  {
    if n < base {
      StringToNatSnoc([], n, base);
    } else {
      var q, r := n / base, n % base;
      DivMod(n, base);
      NatToStringRoundTrip(q, base);
      assert NatToString(n, base) == NatToString(q, base) + [DigitChar(r)];
      StringToNatSnoc(NatToString(q, base), r, base);
    }
  }

  lemma DivMod(n: nat, b: nat)
    requires b > 1
    ensures n == (n / b) * b + n % b && 0 <= n % b < b
    ensures n >= b ==> 0 < n / b < n
  {
    var q, r := n / b, n % b;
    assert n == q * b + r;
    if n >= b {
      QuotientBounds(n, b, q, r);
    }
  }

  lemma QuotientBounds(n: int, b: int, q: int, r: int)
    requires n == q * b + r && 0 <= r < b && b > 1 && n >= b && q >= 0
    ensures 0 < q < n
  {
    assert q * b == q * 2 + q * (b - 2);
    assert q * (b - 2) >= 0;
  }

  /** Appending a digit multiplies by the base and adds the digit. */
  lemma StringToNatSnoc(p: string, d: nat, base: nat)
    requires 2 <= base <= 10 && d < base && AllDigits(p, base)
    ensures AllDigits(p + [DigitChar(d)], base)
    ensures StringToNat(p + [DigitChar(d)], base) == StringToNat(p, base) * base + d
  {
    var s := p + [DigitChar(d)];
    assert s[..|s| - 1] == p;
  }

  /** BigInteger.toString(), which StringBuilder.append also uses for a
      BigInteger: decimal, with a leading '-' for negative numbers. */
  function IntToString(n: int): (s: string)
    ensures |s| > 0
    ensures s[0] == '-' <==> n < 0
  {
    if n < 0 then "-" + NatToString(-n, 10) else NatToString(n, 10)
  }

  /** The decimal parser that IntToString is the inverse of: an optional
      '-' followed by one or more decimal digits. */
  function ParseInt(s: string): Option<int> {
    if |s| > 1 && s[0] == '-' && AllDigits(s[1..], 10) then Some(0 - StringToNat(s[1..], 10))
    else if |s| > 0 && AllDigits(s, 10) then Some(StringToNat(s, 10))
    else None
  }

  lemma IntToStringRoundTrip(n: int)
    ensures ParseInt(IntToString(n)) == Some(n)
  {
    var s := IntToString(n);
    if n < 0 {
      assert s[1..] == NatToString(-n, 10);
      NatToStringRoundTrip(-n, 10);
    } else {
      NatToStringRoundTrip(n, 10);
    }
  }

  /** Long.toBinaryString: the binary numeral of the 64-bit unsigned value,
      so a negative long gives its two's complement bits. */
  function LongToBinaryString(n: int): (s: string)
    requires InLong(n)
    ensures |s| > 0 && AllDigits(s, 2)
    ensures 0 <= n < 2 ==> s == [DigitChar(n)]
  {
    NatToString(if n < 0 then n + TwoTo64 else n, 2)
  }

  /** Reading the binary string back gives n, or n + 2^64 for negative n. */
  lemma LongToBinaryRoundTrip(n: int)
    requires InLong(n)
    ensures n >= 0 ==> StringToNat(LongToBinaryString(n), 2) == n
    ensures n < 0 ==> StringToNat(LongToBinaryString(n), 2) == n + TwoTo64
  {
    NatToStringRoundTrip(if n < 0 then n + TwoTo64 else n, 2);
  }

  /** Long.toBinaryString(8) is "1000". */
  lemma BinaryOfEight()
    ensures LongToBinaryString(8) == "1000"
  {
  }
}

=== FILE: number_theory.dfy ===
/** Integer facts the rational type rests on: the behaviour of
    BigInteger's gcd, truncating divide and pow, and the coprimality
    lemmas (Bezout, Euclid) that canonical form needs. */
module NumberTheory {

  function IntAbs(a: int): nat {
    if a < 0 then -a else a
  }

  /** a^e, as BigInteger.pow; a^0 == 1 for every a. */
  function Pow(a: int, e: nat): int
    decreases e
  {
    if e == 0 then 1 else a * Pow(a, e - 1)
  }

  /** d divides n (d is non-zero). */
  predicate Divides(d: int, n: int) {
    d != 0 && n % d == 0
  }

  // Gcd and Quot are reached through a one-step wrapper (GcdAt, QuotAt with
  // k == 1), so that in arithmetic contexts the solver treats their results as
  // plain integers and learns about them only from the lemmas below; GcdIs and
  // QuotIs state the definitions. Calls on literals still evaluate fully.

  /** BigInteger.divide: the quotient truncated toward zero. */
  function Quot(a: int, b: int): int
    requires b != 0
  {
    QuotAt(a, b, 1)
  }

  function QuotAt(a: int, b: int, k: nat): int
    requires b != 0
  {
    if k == 0 then
      if (a < 0) == (b < 0) then IntAbs(a) / IntAbs(b) else -(IntAbs(a) / IntAbs(b))
    else
      QuotAt(a, b, 0)
  }

  lemma QuotIs(a: int, b: int)
    requires b != 0
    ensures Quot(a, b) == if (a < 0) == (b < 0) then IntAbs(a) / IntAbs(b) else -(IntAbs(a) / IntAbs(b))
  {
    assert QuotAt(a, b, 0) == if (a < 0) == (b < 0) then IntAbs(a) / IntAbs(b) else -(IntAbs(a) / IntAbs(b));
  }

  /** Truncating division: the remainder a - b * Quot(a, b) is smaller than
      b in magnitude and, when non-zero, carries the sign of a. */
  lemma QuotTruncates(a: int, b: int)
    requires b != 0
    ensures var r := a - b * Quot(a, b);
      IntAbs(r) < IntAbs(b) && (r == 0 || (r < 0 <==> a < 0))
  {
    QuotIs(a, b);
    var q, m := IntAbs(a) / IntAbs(b), IntAbs(a) % IntAbs(b);
    assert IntAbs(a) == IntAbs(b) * q + m && 0 <= m < IntAbs(b);
    if a >= 0 && b > 0 {
      assert a - b * Quot(a, b) == m;
    } else if a >= 0 {
      assert Quot(a, b) == -q;
      assert a - b * Quot(a, b) == a - IntAbs(b) * q == m;
    } else if b > 0 {
      assert Quot(a, b) == -q;
      assert a - b * Quot(a, b) == -(IntAbs(b) * q + m) + b * q == -m;
    } else {
      assert Quot(a, b) == q;
      assert a - b * Quot(a, b) == -(IntAbs(b) * q + m) + IntAbs(b) * q == -m;
    }
  }

  /** Euclid's algorithm on magnitudes, by repeated subtraction. */
  function NatGcd(a: nat, b: nat): (g: nat)
    ensures g == 0 <==> a == 0 && b == 0
    decreases a + b
  {
    if a == 0 then b
    else if b == 0 then a
    else if a >= b then NatGcd(a - b, b)
    else NatGcd(a, b - a)
  }

  /** BigInteger.gcd: the gcd of the absolute values, with gcd(0, 0) == 0. */
  function Gcd(a: int, b: int): (g: nat)
    ensures g == 0 <==> a == 0 && b == 0
  {
    GcdAt(a, b, 1)
  }

  function GcdAt(a: int, b: int, k: nat): (g: nat)
    ensures g == 0 <==> a == 0 && b == 0
  {
    if k == 0 then NatGcd(IntAbs(a), IntAbs(b)) else GcdAt(a, b, 0)
  }

  lemma GcdIs(a: int, b: int)
    ensures Gcd(a, b) == NatGcd(IntAbs(a), IntAbs(b))
  {
    assert GcdAt(a, b, 0) == NatGcd(IntAbs(a), IntAbs(b));
  }

  lemma {:induction false} NatGcdDivides(a: nat, b: nat)
    requires a > 0 || b > 0
    ensures Divides(NatGcd(a, b), a) && Divides(NatGcd(a, b), b)
    decreases a + b
  {
    var g := NatGcd(a, b);
    if a == 0 {
      DividesZero(b);
      DividesSelf(b);
    } else if b == 0 {
      DividesZero(a);
      DividesSelf(a);
    } else if a >= b {
      NatGcdDivides(a - b, b);
      DividesCombine(g, a - b, b, 1, 1);
    } else {
      NatGcdDivides(a, b - a);
      DividesCombine(g, a, b - a, 1, 1);
    }
  }

  lemma GcdDivides(a: int, b: int)
    requires a != 0 || b != 0
    ensures Gcd(a, b) > 0 && Divides(Gcd(a, b), a) && Divides(Gcd(a, b), b)
  {
    var g := Gcd(a, b);
    GcdIs(a, b);
    NatGcdDivides(IntAbs(a), IntAbs(b));
    DividesNeg(g, IntAbs(a));
    DividesNeg(g, IntAbs(b));
  }

  /** Every common divisor of a and b divides Gcd(a, b): it is the greatest
      common divisor, not just a common one. */
  lemma GcdGreatest(a: int, b: int, d: int)
    requires Divides(d, a) && Divides(d, b)
    ensures Divides(d, Gcd(a, b))
  {
    var s, t := Bezout(a, b);
    DividesCombine(d, a, b, s, t);
  }

  // ---------------------------------------------------------------------
  // Division and divisibility

  lemma MulAbs(a: int, b: int)
    ensures IntAbs(a * b) == IntAbs(a) * IntAbs(b)
    ensures a * b > 0 <==> (a > 0 && b > 0) || (a < 0 && b < 0)
    ensures a * b < 0 <==> (a > 0 && b < 0) || (a < 0 && b > 0)
  {
    if a < 0 && b < 0 {
      assert a * b == (-a) * (-b);
    } else if a < 0 {
      assert a * b == -((-a) * b);
    } else if b < 0 {
      assert a * b == -(a * (-b));
    }
  }

  lemma MulGrows(a: nat, b: nat)
    requires b >= 1
    ensures a * b >= a
  {
    assert a * b == a * (b - 1) + a;
  }

  /** Multiplying by a non-zero integer does not shrink a magnitude. */
  lemma MulFacts(a: int, b: int)
    ensures IntAbs(a * b) == IntAbs(a) * IntAbs(b)
    ensures b != 0 ==> IntAbs(a * b) >= IntAbs(a)
    ensures a * b > 0 <==> (a > 0 && b > 0) || (a < 0 && b < 0)
    ensures a * b < 0 <==> (a > 0 && b < 0) || (a < 0 && b > 0)
  {
    MulAbs(a, b);
    if b != 0 {
      MulGrows(IntAbs(a), IntAbs(b));
    }
  }

  lemma MulDivCancel(d: int, k: int)
    requires d != 0
    ensures (d * k) / d == k && (d * k) % d == 0
  {
    var q', r' := (d * k) / d, (d * k) % d;
    assert d * (k - q') == r';
    MulFacts(d, k - q');
  }

  lemma DividesMul(d: int, k: int)
    requires d != 0
    ensures Divides(d, d * k) && Divides(d, k * d)
  {
    MulDivCancel(d, k);
    assert k * d == d * k;
  }

  lemma DividesSelf(d: int)
    ensures d != 0 ==> Divides(d, d)
  {
    if d != 0 {
      DividesMul(d, 1);
    }
  }

  lemma DividesZero(d: int)
    ensures d != 0 ==> Divides(d, 0)
  {
    if d != 0 {
      DividesMul(d, 0);
    }
  }

  lemma DividesWitness(d: int, n: int)
    requires Divides(d, n)
    ensures n == d * (n / d)
  {
  }

  lemma DividesCombine(d: int, a: int, b: int, s: int, t: int)
    requires Divides(d, a) && Divides(d, b)
    ensures Divides(d, s * a + t * b)
  {
    var p, q := a / d, b / d;
    DividesWitness(d, a);
    DividesWitness(d, b);
    assert s * a + t * b == d * (s * p + t * q) by {
      assert s * a == s * (d * p) == d * (s * p);
      assert t * b == t * (d * q) == d * (t * q);
    }
    DividesMul(d, s * p + t * q);
  }

  lemma DividesNeg(d: int, n: int)
    requires Divides(d, n)
    ensures Divides(d, -n) && Divides(-d, n)
  {
    DividesCombine(d, n, n, -1, 0);
    assert -n == -1 * n + 0 * n;
    DividesWitness(d, n);
    assert n == (-d) * (-(n / d));
    DividesMul(-d, -(n / d));
  }

  /** A divisor of a positive number is no larger than it. */
  lemma DividesLe(d: int, n: int)
    requires d > 0 && n > 0 && Divides(d, n)
    ensures d <= n
  {
    DividesWitness(d, n);
    MulFacts(d, n / d);
  }

  /** Only 1 and -1 divide 1. */
  lemma DividesOne(d: int)
    requires Divides(d, 1)
    ensures d == 1 || d == -1
  {
    DividesWitness(d, 1);
    MulFacts(1 / d, d);
    assert d * (1 / d) == (1 / d) * d;
  }

  // ---------------------------------------------------------------------
  // Truncating division

  /** Truncating and Euclidean division agree when the division is exact. */
  lemma QuotExact(a: int, b: int)
    requires Divides(b, a)
    ensures b * Quot(a, b) == a && Quot(a, b) == a / b
  {
    DividesWitness(b, a);
    QuotIs(a, b);
    var k := a / b;
    MulFacts(b, k);
    MulDivCancel(IntAbs(b), IntAbs(k));
  }

  lemma QuotNonneg(a: int, b: int)
    requires a >= 0 && b > 0
    ensures Quot(a, b) == a / b && 0 <= Quot(a, b)
  {
    QuotIs(a, b);
    var q := a / b;
    assert a == b * q + a % b;
    MulFacts(b, q);
  }

  // ---------------------------------------------------------------------
  // Bezout and coprimality

  lemma {:induction false} NatBezout(a: nat, b: nat) returns (s: int, t: int)
    ensures s * a + t * b == NatGcd(a, b)
    decreases a + b
  {
    if a == 0 {
      s, t := 0, 1;
    } else if b == 0 {
      s, t := 1, 0;
    } else if a >= b {
      var s', t' := NatBezout(a - b, b);
      s, t := s', t' - s';
      assert s' * (a - b) == s' * a - s' * b;
      assert (t' - s') * b == t' * b - s' * b;
    } else {
      var s', t' := NatBezout(a, b - a);
      s, t := s' - t', t';
      assert t' * (b - a) == t' * b - t' * a;
      assert (s' - t') * a == s' * a - t' * a;
    }
  }

  /** Bezout's identity for BigInteger.gcd. */
  lemma Bezout(a: int, b: int) returns (s: int, t: int)
    ensures s * a + t * b == Gcd(a, b)
  {
    var s', t' := NatBezout(IntAbs(a), IntAbs(b));
    GcdIs(a, b);
    s, t := SignedCombination(a, b, s', t', NatGcd(IntAbs(a), IntAbs(b)));
  }

  lemma SignedCombination(a: int, b: int, s': int, t': int, g: int) returns (s: int, t: int)
    requires s' * IntAbs(a) + t' * IntAbs(b) == g
    ensures s * a + t * b == g
  {
    s := if a < 0 then -s' else s';
    t := if b < 0 then -t' else t';
    assert s * a == s' * IntAbs(a);
    assert t * b == t' * IntAbs(b);
  }

  /** A Bezout combination equal to 1 makes a and b coprime. */
  lemma CoprimeByBezout(a: int, b: int, s: int, t: int)
    requires s * a + t * b == 1
    ensures Gcd(a, b) == 1
  {
    var g := Gcd(a, b);
    assert a != 0 || b != 0;
    GcdDivides(a, b);
    DividesCombine(g, a, b, s, t);
    DividesOne(g);
  }

  lemma CoprimeSym(a: int, b: int)
    requires Gcd(a, b) == 1
    ensures Gcd(b, a) == 1
  {
    var s, t := Bezout(a, b);
    CoprimeByBezout(b, a, t, s);
  }

  lemma CoprimeNeg(a: int, b: int)
    ensures Gcd(-a, b) == Gcd(a, b) && Gcd(a, -b) == Gcd(a, b)
  {
    GcdIs(a, b);
    GcdIs(-a, b);
    GcdIs(a, -b);
  }

  lemma GcdOne(a: int)
    ensures Gcd(a, 1) == 1 && Gcd(a, -1) == 1 && Gcd(1, a) == 1 && Gcd(-1, a) == 1
  {
    CoprimeByBezout(a, 1, 0, 1);
    CoprimeByBezout(a, -1, 0, -1);
    CoprimeByBezout(1, a, 1, 0);
    CoprimeByBezout(-1, a, -1, 0);
  }

  lemma GcdZero(d: int)
    ensures Gcd(0, d) == IntAbs(d)
  {
    GcdIs(0, d);
  }

  /** Dividing a and b by their gcd leaves a coprime pair. */
  lemma CoprimeAfterDivision(a: int, b: int)
    requires a != 0 || b != 0
    ensures Gcd(Quot(a, Gcd(a, b)), Quot(b, Gcd(a, b))) == 1
  {
    var g := Gcd(a, b);
    var s, t := Bezout(a, b);
    GcdDivides(a, b);
    QuotExact(a, g);
    QuotExact(b, g);
    var a', b' := Quot(a, g), Quot(b, g);
    CancelCombination(g, a', b', s, t);
    CoprimeByBezout(a', b', s, t);
  }

  lemma CancelCombination(g: int, a': int, b': int, s: int, t: int)
    requires g != 0 && s * (g * a') + t * (g * b') == g
    ensures s * a' + t * b' == 1
  {
    assert g * (s * a' + t * b') == g * 1;
  }

  /** Euclid's lemma: a divisor of a product that is coprime to one factor divides the other. */
  lemma Euclid(a: int, b: int, c: int)
    requires Gcd(a, b) == 1 && Divides(b, a * c)
    ensures Divides(b, c)
  {
    var s, t := Bezout(a, b);
    DividesSelf(b);
    DividesCombine(b, a * c, b, s, t * c);
    calc {
      s * (a * c) + t * c * b;
      (s * a + t * b) * c;
      c;
    }
  }

  /** A product of two numbers coprime to c is coprime to c. */
  lemma CoprimeMul(a: int, b: int, c: int)
    requires Gcd(a, c) == 1 && Gcd(b, c) == 1
    ensures Gcd(a * b, c) == 1
  {
    var s1, t1 := Bezout(a, c);
    var s2, t2 := Bezout(b, c);
    var u := BezoutProduct(a, b, c, s1, t1, s2, t2);
    CoprimeByBezout(a * b, c, s1 * s2, u);
  }

  /** Multiplying two Bezout identities for 1 gives one for the product. */
  lemma BezoutProduct(a: int, b: int, c: int, s1: int, t1: int, s2: int, t2: int) returns (u: int)
    requires s1 * a + t1 * c == 1 && s2 * b + t2 * c == 1
    ensures (s1 * s2) * (a * b) + u * c == 1
  {
    var x, y := s1 * a, s2 * b;
    var p, q := t1 * c, t2 * c;
    u := x * t2 + t1 * y + t1 * t2 * c;
    assert (x + p) * (y + q) == 1;
    assert (x + p) * (y + q) == x * y + x * q + p * y + p * q;
    assert x * q + p * y + p * q == u * c;
    assert x * y == (s1 * s2) * (a * b);
  }

  /** A divisor of a number coprime to c is coprime to c. */
  lemma CoprimeDivisor(d: int, a: int, c: int)
    requires Gcd(a, c) == 1 && Divides(d, a)
    ensures Gcd(d, c) == 1
  {
    var s, t := Bezout(a, c);
    DividesWitness(d, a);
    var k := a / d;
    calc {
      (s * k) * d + t * c;
      s * (d * k) + t * c;
      1;
    }
    CoprimeByBezout(d, c, s * k, t);
  }

  lemma CoprimePowLeft(a: int, c: int, e: nat)
    requires Gcd(a, c) == 1
    ensures Gcd(Pow(a, e), c) == 1
    decreases e
  {
    if e == 0 {
      GcdOne(c);
    } else {
      CoprimePowLeft(a, c, e - 1);
      CoprimeMul(a, Pow(a, e - 1), c);
    }
  }

  /** Powers of coprime numbers are coprime. */
  lemma CoprimePow(a: int, b: int, e: nat)
    requires Gcd(a, b) == 1
    ensures Gcd(Pow(a, e), Pow(b, e)) == 1
  {
    CoprimePowLeft(a, b, e);
    CoprimeSym(Pow(a, e), b);
    CoprimePowLeft(b, Pow(a, e), e);
    CoprimeSym(Pow(b, e), Pow(a, e));
  }

  lemma PowZero(a: int, e: nat)
    ensures Pow(a, e) == 0 <==> a == 0 && e > 0
    ensures a > 0 ==> Pow(a, e) > 0
    ensures Pow(1, e) == 1
    decreases e
  {
    if e > 0 {
      PowZero(a, e - 1);
      if a > 0 {
        assert a * Pow(a, e - 1) > 0;
      }
    }
  }
}

=== FILE: ordering.dfy ===
/** Comparison of Rationals with each other and with longs: compareTo and
    the six relational predicates of each overload. */
module Ordering {
  import opened NumberTheory
  import opened RealFacts
  import opened Rationals

  /** compareTo(Rational): 0 for field-equal operands, otherwise the signum
      of this - other. */
  function CompareTo(x: Rat, y: Rat): (c: int)
    requires Valid(x) && Valid(y)
    ensures -1 <= c <= 1
    ensures Equals(x, y) ==> c == 0
    ensures x.den > 0 && y.den > 0 ==>
      (c < 0 <==> Value(x) < Value(y)) && (c == 0 <==> Value(x) == Value(y)) && (c > 0 <==> Value(x) > Value(y))
    ensures x.num != 0 && y.num != 0 ==>
      (c < 0 <==> Value(x) < Value(y)) && (c == 0 <==> Value(x) == Value(y)) && (c > 0 <==> Value(x) > Value(y))
  {
    if Equals(x, y) then 0 else Signum(Sub(x, y))
  }

  /** compareTo(long): the signum of this - n, with no equality shortcut. */
  function CompareToLong(x: Rat, n: int): (c: int)
    requires Valid(x)
    ensures -1 <= c <= 1
    ensures x.den > 0 ==>
      (c < 0 <==> Value(x) < n as real) && (c == 0 <==> Value(x) == n as real) && (c > 0 <==> Value(x) > n as real)
    ensures x.num != 0 && n != 0 ==>
      (c < 0 <==> Value(x) < n as real) && (c == 0 <==> Value(x) == n as real) && (c > 0 <==> Value(x) > n as real)
  {
    Signum(SubLong(x, n))
  }

  /** The comparison is antisymmetric on every value the operations produce,
      negative denominators included: against 0/1 both directions read the
      same numerator, and otherwise sub re-normalises. */
  lemma CompareAntisymmetric(x: Rat, y: Rat)
    requires Reachable(x) && Reachable(y)
    ensures CompareTo(x, y) == -CompareTo(y, x)
  {
  }

  /** For operands with positive denominators the comparison is transitive. */
  lemma CompareTransitive(x: Rat, y: Rat, z: Rat)
    requires x.den > 0 && y.den > 0 && z.den > 0
    requires CompareTo(x, y) <= 0 && CompareTo(y, z) <= 0
    ensures CompareTo(x, z) <= 0
    ensures CompareTo(x, y) < 0 || CompareTo(y, z) < 0 ==> CompareTo(x, z) < 0
  {
  }

  /** Comparing with a long agrees with comparing with new Rational(n). */
  lemma CompareToLongAgrees(x: Rat, n: int)
    requires Reachable(x)
    ensures CompareToLong(x, n) == CompareTo(x, FromLong(n))
  {
    if Equals(x, FromLong(n)) {
      SubSelf(x);
    }
  }

  /** The value -1/-1, which 1.div(-1) returns, compares below zero
      although it denotes 1: signum reads the numerator only. */
  lemma NegativeDenominatorComparesWrongly()
    ensures Value(Rat(-1, -1)) == 1.0
    ensures CompareTo(Rat(-1, -1), Zero) == -1
    ensures LessThan(Rat(-1, -1), Zero)
    ensures CompareToLong(Rat(-1, -1), 0) == -1
  {
  }

  /** Transitivity fails once a negative denominator is involved:
      -1/-1 < 0 and 0 < 1/2, yet -1/-1 > 1/2. */
  lemma CompareNotTransitive()
    ensures CompareTo(Rat(-1, -1), Zero) == -1
    ensures CompareTo(Zero, Rat(1, 2)) == -1
    ensures CompareTo(Rat(-1, -1), Rat(1, 2)) == 1
  {
  }

  // The relational predicates against another Rational.

  function LessThan(x: Rat, y: Rat): (b: bool)
    requires Valid(x) && Valid(y)
    ensures x.den > 0 && y.den > 0 ==> (b <==> Value(x) < Value(y))
  {
    CompareTo(x, y) < 0
  }

  function LessThanOrEqualTo(x: Rat, y: Rat): (b: bool)
    requires Valid(x) && Valid(y)
    ensures x.den > 0 && y.den > 0 ==> (b <==> Value(x) <= Value(y))
  {
    CompareTo(x, y) <= 0
  }

  function GreaterThan(x: Rat, y: Rat): (b: bool)
    requires Valid(x) && Valid(y)
    ensures x.den > 0 && y.den > 0 ==> (b <==> Value(x) > Value(y))
  {
    CompareTo(x, y) > 0
  }

  function GreaterThanOrEqualTo(x: Rat, y: Rat): (b: bool)
    requires Valid(x) && Valid(y)
    ensures x.den > 0 && y.den > 0 ==> (b <==> Value(x) >= Value(y))
  {
    CompareTo(x, y) >= 0
  }

  function EqualTo(x: Rat, y: Rat): (b: bool)
    requires Valid(x) && Valid(y)
    ensures Equals(x, y) ==> b
    ensures x.den > 0 && y.den > 0 ==> (b <==> Value(x) == Value(y))
  {
    CompareTo(x, y) == 0
  }

  function NotEqualTo(x: Rat, y: Rat): (b: bool)
    requires Valid(x) && Valid(y)
    ensures x.den > 0 && y.den > 0 ==> (b <==> Value(x) != Value(y))
  {
    CompareTo(x, y) != 0
  }

  // The relational predicates against a long.

  function LessThanLong(x: Rat, n: int): (b: bool)
    requires Valid(x)
    ensures x.den > 0 ==> (b <==> Value(x) < n as real)
  {
    CompareToLong(x, n) < 0
  }

  function LessThanOrEqualToLong(x: Rat, n: int): (b: bool)
    requires Valid(x)
    ensures x.den > 0 ==> (b <==> Value(x) <= n as real)
  {
    CompareToLong(x, n) <= 0
  }

  function GreaterThanLong(x: Rat, n: int): (b: bool)
    requires Valid(x)
    ensures x.den > 0 ==> (b <==> Value(x) > n as real)
  {
    CompareToLong(x, n) > 0
  }

  function GreaterThanOrEqualToLong(x: Rat, n: int): (b: bool)
    requires Valid(x)
    ensures x.den > 0 ==> (b <==> Value(x) >= n as real)
  {
    CompareToLong(x, n) >= 0
  }

  function EqualToLong(x: Rat, n: int): (b: bool)
    requires Valid(x)
    ensures x.den > 0 ==> (b <==> Value(x) == n as real)
  {
    CompareToLong(x, n) == 0
  }

  function NotEqualToLong(x: Rat, n: int): (b: bool)
    requires Valid(x)
    ensures x.den > 0 ==> (b <==> Value(x) != n as real)
  {
    CompareToLong(x, n) != 0
  }
}

=== FILE: rational.dfy ===
/** The Rational value type: an immutable pair (num, den) of unbounded
    integers, its constructors, normalisation, equality and arithmetic,
    modelled as written (mul, div, abs and pow do not re-normalise). */
module Rationals {
  import opened NumberTheory
  import opened RealFacts

  /** The exceptions the class throws or lets escape: IllegalArgumentException,
      UnsupportedOperationException, NumberFormatException (Long.parseLong)
      and ArithmeticException (BigInteger.longValueExact). */
  datatype Error = IllegalArgument | UnsupportedOperation | NumberFormat | Arithmetic

  datatype Result<T> = Ok(value: T) | Err(error: Error)

  /** A Rational as stored: the fields num and den exactly as the code leaves them. */
  datatype Rat = Rat(num: int, den: int)

  /** new Rational(0): canonical zero. */
  const Zero := Rat(0, 1)

  /** The pair denotes a number. */
  predicate Valid(x: Rat) {
    x.den != 0
  }

  /** Lowest terms with a positive denominator; zero is then 0/1. */
  predicate Canonical(x: Rat) {
    x.den > 0 && Gcd(x.num, x.den) == 1
  }

  /** What every value the public operations produce satisfies: a non-zero
      denominator, and zero stored as 0/1. Weaker than Canonical, because
      mul and div can return pairs that are not in lowest terms or that
      have a negative denominator. */
  predicate Reachable(x: Rat) {
    x.den != 0 && (x.num == 0 ==> x == Zero)
  }

  /** The exact number the pair denotes. */
  function Value(x: Rat): (v: real)
    requires Valid(x)
    ensures v == 0.0 <==> x.num == 0
    ensures x.den > 0 ==> (v < 0.0 <==> x.num < 0)
  {
    FracZero(x.num, x.den);
    if x.den > 0 then FracSign(x.num, x.den); Frac(x.num, x.den) else Frac(x.num, x.den)
  }

  function RealAbs(v: real): real {
    if v < 0.0 then -v else v
  }

  function RealPow(v: real, e: nat): real
    decreases e
  {
    if e == 0 then 1.0 else v * RealPow(v, e - 1)
  }

  lemma CanonicalIsReachable(x: Rat)
    requires Canonical(x)
    ensures Reachable(x)
  {
    if x.num == 0 {
      GcdZero(x.den);
    }
  }

  /** Two canonical pairs with the same value are the same pair. */
  lemma CanonicalUnique(x: Rat, y: Rat)
    requires Canonical(x) && Canonical(y)
    requires x.num * y.den == y.num * x.den
    ensures x == y
  {
    DividesMul(x.den, y.num);
    assert x.num * y.den == x.den * y.num;
    Euclid(x.num, x.den, y.den);
    DividesMul(y.den, x.num);
    assert y.num * x.den == y.den * x.num;
    Euclid(y.num, y.den, x.den);
    DividesLe(x.den, y.den);
    DividesLe(y.den, x.den);
    assert (x.num - y.num) * x.den == 0;
  }

  // ---------------------------------------------------------------------
  // Construction and normalisation

  /** simplify(): divide out the gcd, then move the sign to the numerator;
      zero becomes 0/1. */
  function Simplify(n: int, d: int): (r: Rat)
    requires d != 0
    ensures Canonical(r)
    ensures r.num * d == n * r.den
    ensures Divides(r.den, d)
  {
    if n == 0 then
      ZeroFacts(d);
      Zero
    else
      var g := Gcd(n, d);
      ReduceFacts(n, d);
      if Quot(d, g) < 0 then Rat(-Quot(n, g), -Quot(d, g)) else Rat(Quot(n, g), Quot(d, g))
  }

  lemma ZeroFacts(d: int)
    requires d != 0
    ensures Canonical(Zero) && Divides(1, d)
  {
    GcdOne(0);
    DividesMul(1, d);
  }

  /** Dividing by the gcd keeps the value and leaves a coprime pair whose
      denominator divides the original one. */
  lemma ReduceFacts(n: int, d: int)
    requires n != 0 && d != 0
    ensures var g := Gcd(n, d); var n1, d1 := Quot(n, g), Quot(d, g);
      && d1 != 0
      && Gcd(n1, d1) == 1 && Gcd(-n1, -d1) == 1
      && n1 * d == n * d1 && (-n1) * d == n * (-d1)
      && Divides(d1, d) && Divides(-d1, d)
  {
    var g := Gcd(n, d);
    GcdDivides(n, d);
    QuotExact(n, g);
    QuotExact(d, g);
    CoprimeAfterDivision(n, d);
    var n1, d1 := Quot(n, g), Quot(d, g);
    ReducedPair(n, d, g, n1, d1);
    CoprimeNeg(n1, d1);
    CoprimeNeg(-n1, d1);
  }

  lemma ReducedPair(n: int, d: int, g: int, n1: int, d1: int)
    requires d != 0 && g * n1 == n && g * d1 == d
    ensures d1 != 0 && n1 * d == n * d1 && (-n1) * d == n * (-d1)
    ensures Divides(d1, d) && Divides(-d1, d)
  {
    assert n1 * d == n * d1 by {
      calc {
        n1 * d;
        n1 * (g * d1);
        (g * n1) * d1;
        n * d1;
      }
    }
    assert (-n1) * d == n * (-d1);
    DividesMul(d1, g);
    assert d == d1 * g;
    DividesNeg(d1, d);
  }

  /** new Rational(num, den), for long and for BigInteger arguments:
      rejects a zero denominator, otherwise normalises. */
  function New(n: int, d: int): (r: Result<Rat>)
    ensures d == 0 <==> r == Err(IllegalArgument)
    ensures r.Ok? ==> d != 0 && Canonical(r.value) && Value(r.value) == Frac(n, d)
  {
    if d == 0 then Err(IllegalArgument)
    else
      var s := Simplify(n, d);
      FracCross(s.num, s.den, n, d);
      Ok(s)
  }

  /** new Rational(n): the integer n as n/1, with no normalisation. */
  function FromLong(n: int): (r: Rat)
    ensures Canonical(r) && Value(r) == n as real
  {
    GcdOne(n);
    FracIs(n, 1);
    Rat(n, 1)
  }

  /** new Rational(n) is equivalent to new Rational(n, 1). */
  lemma FromLongIsNew(n: int)
    ensures New(n, 1) == Ok(FromLong(n))
  {
    GcdOne(n);
    CanonicalUnique(Simplify(n, 1), FromLong(n));
  }

  /** equals(Object): field-by-field comparison. */
  predicate Equals(x: Rat, y: Rat) {
    x.den == y.den && x.num == y.num
  }

  /** On canonical values, structural equality is equality of value. */
  lemma EqualsIsValueEquality(x: Rat, y: Rat)
    requires Canonical(x) && Canonical(y)
    ensures Equals(x, y) <==> Value(x) == Value(y)
  {
    FracCross(x.num, x.den, y.num, y.den);
    if Value(x) == Value(y) {
      CanonicalUnique(x, y);
    }
  }

  /** Scaling numerator and denominator by the same non-zero k builds the
      same Rational, or fails in the same way when b is zero. */
  lemma {:induction false} NewScaled(a: int, b: int, k: int)
    requires k != 0
    ensures New(a * k, b * k) == New(a, b)
  {
    MulFacts(b, k);
    if b == 0 {
      return;
    }
    assert b * k != 0;
    var s := New(a * k, b * k).value;
    var t := New(a, b).value;
    assert Value(s) == Frac(a * k, b * k);
    assert Value(t) == Frac(a, b);
    ScaledCross(a, b, k);
    assert Value(s) == Value(t);
    EqualsIsValueEquality(s, t);
    assert s == t;
  }

  lemma ScaledCross(a: int, b: int, k: int)
    requires b != 0 && k != 0
    ensures b * k != 0 && Frac(a * k, b * k) == Frac(a, b)
  {
    MulFacts(b, k);
    assert (a * k) * b == a * (b * k);
    FracCross(a * k, b * k, a, b);
  }

  // ---------------------------------------------------------------------
  // Addition and subtraction

  /** add(Rational): returns the other operand unchanged when one is 0/1,
      otherwise the normalised cross-multiplied sum. */
  function Add(x: Rat, y: Rat): (r: Rat)
    requires Valid(x) && Valid(y)
    ensures Valid(r) && Value(r) == Value(x) + Value(y)
    ensures x == Zero ==> r == y
    ensures x != Zero && y == Zero ==> r == x
    ensures x != Zero && y != Zero ==> Canonical(r)
    ensures Canonical(x) && Canonical(y) ==> Canonical(r)
    ensures Reachable(x) && Reachable(y) ==> Reachable(r)
  {
    if x == Zero then
      y
    else if y == Zero then
      x
    else
      var n, d := x.num * y.den + x.den * y.num, x.den * y.den;
      MulFacts(x.den, y.den);
      var r := Simplify(n, d);
      FracCross(r.num, r.den, n, d);
      FracAdd(x.num, x.den, y.num, y.den);
      CanonicalIsReachable(r);
      r
  }

  /** add is commutative structurally, not just in value, on every valid
      pair, the non-canonical results of mul and div included. */
  lemma AddCommutative(x: Rat, y: Rat)
    requires Valid(x) && Valid(y)
    ensures Add(x, y) == Add(y, x)
  {
    if x != Zero && y != Zero {
      EqualsIsValueEquality(Add(x, y), Add(y, x));
    }
  }

  /** On canonical operands add is associative, structurally. */
  lemma AddAssociative(x: Rat, y: Rat, z: Rat)
    requires Canonical(x) && Canonical(y) && Canonical(z)
    ensures Add(Add(x, y), z) == Add(x, Add(y, z))
  {
    EqualsIsValueEquality(Add(Add(x, y), z), Add(x, Add(y, z)));
  }

  /** Associativity fails on the non-canonical 2/2 that mul returns: the
      zero shortcut hands back 2/2 unnormalised on one side only. */
  lemma AddNotAssociative()
    ensures Add(Add(Rat(2, 2), Rat(-1, 1)), Rat(1, 1)) == Rat(1, 1)
    ensures Add(Rat(2, 2), Add(Rat(-1, 1), Rat(1, 1))) == Rat(2, 2)
  {
  }

  /** sub(Rational): 0 - y is y.mul(-1); x - 0 is x; otherwise x plus the
      normalised negation of y. */
  function Sub(x: Rat, y: Rat): (r: Rat)
    requires Valid(x) && Valid(y)
    ensures Valid(r) && Value(r) == Value(x) - Value(y)
    ensures x == Zero && y.num != 0 ==> r == Rat(-y.num, y.den)
    ensures x != Zero && y == Zero ==> r == x
    ensures x != Zero && y.num != 0 ==> Canonical(r)
    ensures x.den > 0 && y.den > 0 ==> r.den > 0
    ensures Canonical(x) && Canonical(y) ==> Canonical(r)
    ensures Reachable(x) && Reachable(y) ==> Reachable(r)
  {
    if x == Zero then
      NegateFacts(y);
      MulByMinusOne(y);
      Mul(y, FromLong(-1))
    else if y == Zero then
      x
    else
      var neg := Simplify(-y.num, y.den);
      NegateFacts(y);
      SimplifiedNegation(y);
      Add(x, neg)
  }

  /** Negating the numerator negates the value and keeps lowest terms. */
  lemma NegateFacts(y: Rat)
    ensures Valid(y) ==> Value(Rat(-y.num, y.den)) == -Value(y)
    ensures Canonical(y) ==> Canonical(Rat(-y.num, y.den))
  {
    CoprimeNeg(y.num, y.den);
    if Valid(y) {
      FracNeg(y.num, y.den);
    }
  }

  lemma SimplifiedNegation(y: Rat)
    requires Valid(y)
    ensures Value(Simplify(-y.num, y.den)) == -Value(y)
    ensures y.num != 0 ==> Simplify(-y.num, y.den) != Zero
  {
    var neg := Simplify(-y.num, y.den);
    FracCross(neg.num, neg.den, -y.num, y.den);
    FracNeg(y.num, y.den);
    FracZero(neg.num, neg.den);
    FracZero(y.num, y.den);
  }

  /** x - x is 0/1. */
  lemma SubSelf(x: Rat)
    requires Reachable(x)
    ensures Sub(x, x) == Zero
  {
    var r := Sub(x, x);
    if x != Zero {
      var neg := Simplify(-x.num, x.den);
      FracCross(neg.num, neg.den, -x.num, x.den);
      FracZero(neg.num, neg.den);
      assert neg != Zero;
      assert Canonical(r);
      FracSign(r.num, r.den);
      GcdZero(r.den);
    }
  }

  // ---------------------------------------------------------------------
  // Multiplication and division (no re-normalisation)

  /** mul(Rational): 0 if either numerator is 0; otherwise the numerator is
      this.num * (other.num / gcd(this.den, other.num)) and the denominator
      this.den * (other.den / gcd(this.num, other.den)): each gcd cancels
      only one of the two factors it divides. */
  function Mul(x: Rat, y: Rat): (r: Rat)
    ensures x.num == 0 || y.num == 0 ==> r == Zero
    ensures Valid(x) && Valid(y) ==> Valid(r)
    ensures Valid(x) && Valid(y) ==>
      Value(r) * Gcd(x.den, y.num) as real == Value(x) * Value(y) * Gcd(x.num, y.den) as real
    ensures Valid(x) && Valid(y) && Gcd(x.den, y.num) == Gcd(x.num, y.den) ==>
      Value(r) == Value(x) * Value(y)
    ensures x.den > 0 && y.den > 0 ==> r.den > 0
    ensures Reachable(x) && Reachable(y) ==> Reachable(r)
  {
    if x.num == 0 || y.num == 0 then
      ZeroProduct(x, y);
      Zero
    else
      CrossCancelledProduct(x, y);
      CancelledDenominator(x.den, y.den, x.num);
      Rat(x.num * Quot(y.num, Gcd(x.den, y.num)), x.den * Quot(y.den, Gcd(x.num, y.den)))
  }

  lemma CrossCancelledProduct(x: Rat, y: Rat)
    requires x.num != 0 && y.num != 0
    ensures var g1, g2 := Gcd(x.den, y.num), Gcd(x.num, y.den);
      var r := Rat(x.num * Quot(y.num, g1), x.den * Quot(y.den, g2));
      && (Valid(x) && Valid(y) ==> Valid(r) && Value(r) * g1 as real == Value(x) * Value(y) * g2 as real)
      && (Valid(x) && Valid(y) && g1 == g2 ==> Value(r) == Value(x) * Value(y))
      && (Reachable(x) && Reachable(y) ==> Reachable(r))
  {
    var g1, g2 := Gcd(x.den, y.num), Gcd(x.num, y.den);
    GcdDivides(x.den, y.num);
    GcdDivides(x.num, y.den);
    QuotExact(y.num, g1);
    QuotExact(y.den, g2);
    ProductParts(x, y, g1, g2, Quot(y.num, g1), Quot(y.den, g2));
  }

  /** The product x.num p / x.den q where y == (g1 p)/(g2 q). */
  lemma ProductParts(x: Rat, y: Rat, g1: int, g2: int, p: int, q: int)
    requires x.num != 0 && y.num != 0 && g1 > 0 && g2 > 0
    requires y.num == g1 * p && y.den == g2 * q
    ensures var r := Rat(x.num * p, x.den * q);
      && (Valid(x) && Valid(y) ==> Valid(r) && Value(r) * g1 as real == Value(x) * Value(y) * g2 as real)
      && (Valid(x) && Valid(y) && g1 == g2 ==> Value(r) == Value(x) * Value(y))
      && (Reachable(x) && Reachable(y) ==> Reachable(r))
  {
    MulFacts(x.num, p);
    MulValue(x, y, g1, g2, p, q);
  }

  /** d * (e / gcd(n, e)) has the sign of d * e: the gcd is positive and
      divides e exactly. */
  lemma CancelledDenominator(d: int, e: int, n: int)
    ensures d != 0 && e != 0 ==> var k := Quot(e, Gcd(n, e));
      k != 0 && (k < 0 <==> e < 0) && (d * k < 0 <==> (d < 0) != (e < 0))
  {
    if d == 0 || e == 0 {
      return;
    }
    var g := Gcd(n, e);
    GcdDivides(n, e);
    QuotExact(e, g);
    MulFacts(g, Quot(e, g));
    MulFacts(d, Quot(e, g));
  }

  lemma ZeroProduct(x: Rat, y: Rat)
    requires x.num == 0 || y.num == 0
    ensures Valid(x) && Valid(y) ==> Value(x) * Value(y) == 0.0
  {
    if Valid(x) && Valid(y) {
      FracZero(x.num, x.den);
      FracZero(y.num, y.den);
    }
  }

  lemma MulValue(x: Rat, y: Rat, g1: int, g2: int, p: int, q: int)
    requires g1 > 0 && g2 > 0
    requires y.num == g1 * p && y.den == g2 * q
    ensures Valid(x) && Valid(y) ==> x.den * q != 0
    ensures Valid(x) && Valid(y) ==> Frac(x.num * p, x.den * q) * g1 as real == Value(x) * Value(y) * g2 as real
    ensures Valid(x) && Valid(y) && g1 == g2 ==> Frac(x.num * p, x.den * q) == Value(x) * Value(y)
  {
    if Valid(x) && Valid(y) {
      MulValueValid(x, y, g1, g2, p, q);
    }
  }

  lemma MulValueValid(x: Rat, y: Rat, g1: int, g2: int, p: int, q: int)
    requires x.den != 0 && y.den != 0 && g1 > 0 && g2 > 0
    requires y.num == g1 * p && y.den == g2 * q
    ensures x.den * q != 0
    ensures Frac(x.num * p, x.den * q) * g1 as real == Value(x) * Value(y) * g2 as real
    ensures g1 == g2 ==> Frac(x.num * p, x.den * q) == Value(x) * Value(y)
  {
    FracCrossCancel(x.num, x.den, p, q, g1, g2);
    assert Value(y) == Frac(g1 * p, g2 * q);
  }

  /** x.mul(-1) negates the numerator only; x.mul(1) is x itself. */
  lemma MulByMinusOne(x: Rat)
    ensures x.num != 0 ==> Mul(x, FromLong(-1)) == Rat(-x.num, x.den)
    ensures x.num == 0 ==> Mul(x, FromLong(-1)) == Zero
    ensures x.num != 0 ==> Mul(x, FromLong(1)) == x
  {
    GcdOne(x.den);
    GcdOne(x.num);
    QuotExact(-1, 1);
    QuotExact(1, 1);
  }

  /** div(Rational): 0/1 for a zero dividend (before the divisor is looked
      at); IllegalArgumentException for a 0/1 divisor; otherwise the
      cross-cancelled product with the reciprocal, then mul(-1) when the
      divisor's numerator is negative. */
  function Div(x: Rat, y: Rat): (r: Result<Rat>)
    requires Valid(x) && Valid(y)
    ensures x.num == 0 ==> r == Ok(Zero)
    ensures x.num != 0 ==> (r.Err? <==> y == Zero)
    ensures r.Err? ==> r.error == IllegalArgument
    ensures r.Ok? && Reachable(y) ==> Valid(r.value)
    ensures r.Ok? && x.num != 0 && y.num != 0 ==>
      Valid(r.value) &&
      Value(r.value) * Gcd(x.den, y.den) as real
        == (if y.num < 0 then -1.0 else 1.0) * (Value(x) / Value(y)) * Gcd(x.num, y.num) as real
    ensures r.Ok? && x.den > 0 && y.den > 0 && x.num != 0 && y.num != 0 ==>
      (r.value.den < 0 <==> y.num < 0)
    ensures r.Ok? && Reachable(x) && Reachable(y) ==> Reachable(r.value)
  {
    if x.num == 0 then
      Ok(Zero)
    else if y == Zero then
      Err(IllegalArgument)
    else
      var q := Rat(x.num * Quot(y.den, Gcd(x.den, y.den)), x.den * Quot(y.num, Gcd(x.num, y.num)));
      CrossCancelledQuotient(x, y);
      QuotientSign(x, y);
      Ok(if y.num < 0 then Mul(q, FromLong(-1)) else q)
  }

  lemma CrossCancelledQuotient(x: Rat, y: Rat)
    requires Valid(x) && Valid(y) && x.num != 0 && y != Zero
    ensures var g1, g2 := Gcd(x.den, y.den), Gcd(x.num, y.num);
      var q := Rat(x.num * Quot(y.den, g1), x.den * Quot(y.num, g2));
      var r := if y.num < 0 then Mul(q, FromLong(-1)) else q;
      && (Reachable(y) ==> Valid(r))
      && (y.num != 0 ==>
            Valid(r) && Value(r) * g1 as real
              == (if y.num < 0 then -1.0 else 1.0) * (Value(x) / Value(y)) * g2 as real)
      && (Reachable(x) && Reachable(y) ==> Reachable(r))
  {
    var g1, g2 := Gcd(x.den, y.den), Gcd(x.num, y.num);
    GcdDivides(x.den, y.den);
    GcdDivides(x.num, y.num);
    QuotExact(y.den, g1);
    QuotExact(y.num, g2);
    MulFacts(x.num, Quot(y.den, g1));
    var q := Rat(x.num * Quot(y.den, g1), x.den * Quot(y.num, g2));
    DivValue(x, y, g1, g2, Quot(y.den, g1), Quot(y.num, g2));
    MulByMinusOne(q);
    NegateFacts(q);
  }

  /** For positive denominators, the quotient's denominator is negative
      exactly when the divisor is: mul(-1) does not move the sign. */
  lemma QuotientSign(x: Rat, y: Rat)
    requires Valid(x) && x.num != 0
    ensures var q := Rat(x.num * Quot(y.den, Gcd(x.den, y.den)), x.den * Quot(y.num, Gcd(x.num, y.num)));
      var r := if y.num < 0 then Mul(q, FromLong(-1)) else q;
      x.den > 0 && y.den > 0 && y.num != 0 ==> (r.den < 0 <==> y.num < 0)
  {
    if x.den < 0 || y.den <= 0 || y.num == 0 {
      return;
    }
    var q := Rat(x.num * Quot(y.den, Gcd(x.den, y.den)), x.den * Quot(y.num, Gcd(x.num, y.num)));
    CancelledDenominator(x.den, y.den, x.den);
    CancelledDenominator(x.den, y.num, x.num);
    MulFacts(x.num, Quot(y.den, Gcd(x.den, y.den)));
    MulByMinusOne(q);
  }

  lemma DivValue(x: Rat, y: Rat, g1: int, g2: int, p: int, q: int)
    requires x.den != 0 && y.den != 0 && g1 > 0 && g2 > 0
    requires y.den == g1 * p && y.num == g2 * q
    ensures y.num == 0 ==> q == 0
    ensures y.num != 0 ==> x.den * q != 0
    ensures y.num != 0 ==> Frac(x.num * p, x.den * q) * g1 as real == (Value(x) / Value(y)) * g2 as real
  {
    if y.num != 0 {
      DivValueNonzero(x, y, g1, g2, p, q);
    }
  }

  lemma DivValueNonzero(x: Rat, y: Rat, g1: int, g2: int, p: int, q: int)
    requires x.den != 0 && y.den != 0 && y.num != 0 && g1 > 0 && g2 > 0
    requires y.den == g1 * p && y.num == g2 * q
    ensures x.den * q != 0
    ensures Frac(x.num * p, x.den * q) * g1 as real == (Value(x) / Value(y)) * g2 as real
  {
    FracZero(y.num, y.den);
    var inv := Rat(y.den, y.num);
    FracCross(1, 1, y.num * y.den, y.den * y.num);
    FracMul(y.den, y.num, y.num, y.den);
    assert Value(inv) * Value(y) == 1.0;
    assert Value(inv) == 1.0 / Value(y);
    MulValueValid(x, inv, g1, g2, p, q);
  }

  /** x.div(1) is x itself; 0.div(0) is 0/1. */
  lemma DivByOne(x: Rat)
    requires Reachable(x)
    ensures Div(x, FromLong(1)) == Ok(x)
    ensures Div(Zero, Zero) == Ok(Zero)
  {
    GcdOne(x.den);
    GcdOne(x.num);
    QuotExact(1, 1);
  }

  // ---------------------------------------------------------------------
  // abs, signum, pow

  /** abs(): this when the numerator is non-negative, otherwise the
      numerator negated over the same denominator. */
  function Abs(x: Rat): (r: Rat)
    ensures r.num >= 0 && r.den == x.den && IntAbs(r.num) == IntAbs(x.num)
    ensures x.num >= 0 ==> r == x
    ensures x.den > 0 ==> Value(r) == RealAbs(Value(x))
    ensures Canonical(x) ==> Canonical(r)
    ensures Reachable(x) ==> Reachable(r)
  {
    SignFacts(x);
    NegateFacts(x);
    if x.num >= 0 then x else Rat(-x.num, x.den)
  }

  /** The sign of the numerator is the sign of the value when den > 0. */
  lemma SignFacts(x: Rat)
    ensures x.den > 0 ==> (Value(x) < 0.0 <==> x.num < 0) && (Value(x) > 0.0 <==> x.num > 0)
    ensures Valid(x) ==> (Value(x) == 0.0 <==> x.num == 0)
  {
    if x.den > 0 {
      FracSign(x.num, x.den);
    }
    if Valid(x) {
      FracZero(x.num, x.den);
    }
  }

  /** signum(): the sign of the numerator. */
  function Signum(x: Rat): (s: int)
    ensures -1 <= s <= 1
    ensures (s < 0 <==> x.num < 0) && (s == 0 <==> x.num == 0)
    ensures Valid(x) ==> (s == 0 <==> Value(x) == 0.0)
    ensures x.den > 0 ==> (s < 0 <==> Value(x) < 0.0) && (s > 0 <==> Value(x) > 0.0)
  {
    SignFacts(x);
    if x.num < 0 then -1 else if x.num == 0 then 0 else 1
  }

  /** pow(int): rejects a negative exponent and 0^0, gives 1 for e == 0,
      otherwise raises numerator and denominator separately. */
  function Power(x: Rat, e: int): (r: Result<Rat>)
    ensures e < 0 ==> r == Err(IllegalArgument)
    ensures e == 0 ==> (r == Err(IllegalArgument) <==> x.num == 0)
    ensures e == 0 && x.num != 0 ==> r == Ok(FromLong(1))
    ensures e > 0 ==> r.Ok?
    ensures e > 0 && Valid(x) ==> Valid(r.value) && Value(r.value) == RealPow(Value(x), e)
    ensures e > 0 && Canonical(x) ==> Canonical(r.value)
    ensures e > 0 && x.den > 0 ==> r.value.den > 0
    ensures r.Ok? && Reachable(x) ==> Reachable(r.value)
  {
    if e < 0 then
      Err(IllegalArgument)
    else if e == 0 && Signum(x) == 0 then
      Err(IllegalArgument)
    else if e == 0 then
      Ok(FromLong(1))
    else
      var p := Rat(Pow(x.num, e), Pow(x.den, e));
      PowZero(x.num, e);
      PowZero(x.den, e);
      PowZero(1, e);
      PowFacts(x, e);
      Ok(p)
  }

  lemma PowFacts(x: Rat, e: nat)
    ensures Valid(x) ==> Pow(x.den, e) != 0 && Frac(Pow(x.num, e), Pow(x.den, e)) == RealPow(Value(x), e)
    ensures Canonical(x) ==> Gcd(Pow(x.num, e), Pow(x.den, e)) == 1
  {
    if Valid(x) {
      PowValue(x.num, x.den, e);
    }
    if Canonical(x) {
      CoprimePow(x.num, x.den, e);
    }
  }

  lemma {:induction false} PowValue(n: int, d: int, e: nat)
    requires d != 0
    ensures Pow(d, e) != 0
    ensures Frac(Pow(n, e), Pow(d, e)) == RealPow(Frac(n, d), e)
    decreases e
  {
    PowZero(d, e);
    if e > 0 {
      PowValue(n, d, e - 1);
      PowZero(d, e - 1);
      FracMul(n, d, Pow(n, e - 1), Pow(d, e - 1));
    }
  }

  // ---------------------------------------------------------------------
  // The long overloads

  /** add(long): this + new Rational(n). */
  function AddLong(x: Rat, n: int): (r: Rat)
    requires Valid(x)
    ensures Valid(r) && Value(r) == Value(x) + n as real
    ensures Canonical(x) ==> Canonical(r)
    ensures Reachable(x) ==> Reachable(r)
  {
    Add(x, FromLong(n))
  }

  /** sub(long): this - new Rational(n). Subtracting an integer never
      enlarges the denominator. */
  function SubLong(x: Rat, n: int): (r: Rat)
    requires Valid(x)
    ensures Valid(r) && Value(r) == Value(x) - n as real
    ensures x.den > 0 ==> r.den > 0 && Divides(r.den, x.den)
    ensures Canonical(x) ==> Canonical(r)
    ensures Reachable(x) ==> Reachable(r)
  {
    SubIntegerDenominator(x, n);
    Sub(x, FromLong(n))
  }

  lemma SubIntegerDenominator(x: Rat, n: int)
    requires Valid(x)
    ensures x.den > 0 ==> Sub(x, FromLong(n)).den > 0 && Divides(Sub(x, FromLong(n)).den, x.den)
  {
    var y := FromLong(n);
    var r := Sub(x, y);
    if x.den > 0 {
      DividesSelf(x.den);
      if x == Zero {
        DividesMul(1, x.den);
        MulByMinusOne(y);
      } else if y != Zero {
        var neg := Simplify(-n, 1);
        GcdOne(-n);
        CanonicalUnique(neg, Rat(-n, 1));
        var s := Simplify(x.num * 1 + x.den * -n, x.den * 1);
        assert r == s;
      }
    }
  }

  /** mul(long): this * new Rational(n). The denominator is kept, and the
      value is the true product only when gcd(den, n) is 1. */
  function MulLong(x: Rat, n: int): (r: Rat)
    ensures x.num == 0 || n == 0 ==> r == Zero
    ensures x.num != 0 && n != 0 ==> r.den == x.den
    ensures Valid(x) ==> Valid(r) && Value(r) * Gcd(x.den, n) as real == Value(x) * n as real
    ensures Valid(x) && Gcd(x.den, n) == 1 ==> Value(r) == Value(x) * n as real
    ensures Reachable(x) ==> Reachable(r)
  {
    MulByInteger(x, n);
    Mul(x, FromLong(n))
  }

  lemma MulByInteger(x: Rat, n: int)
    ensures var r := Mul(x, FromLong(n));
      && (x.num != 0 && n != 0 ==> r.den == x.den)
      && (Valid(x) ==> Valid(r) && Value(r) * Gcd(x.den, n) as real == Value(x) * n as real)
      && (Valid(x) && Gcd(x.den, n) == 1 ==> Value(r) == Value(x) * n as real)
  {
    MulByIntegerDen(x, n);
    if Valid(x) {
      MulByIntegerValue(x, n);
    }
  }

  lemma MulByIntegerDen(x: Rat, n: int)
    ensures x.num != 0 && n != 0 ==> Mul(x, FromLong(n)).den == x.den
  {
    if x.num != 0 && n != 0 {
      GcdOne(x.num);
      QuotExact(1, 1);
    }
  }

  lemma MulByIntegerValue(x: Rat, n: int)
    requires Valid(x)
    ensures Valid(Mul(x, FromLong(n)))
    ensures Value(Mul(x, FromLong(n))) * Gcd(x.den, n) as real == Value(x) * n as real
  {
    var y := FromLong(n);
    assert y.num == n && y.den == 1;
    GcdOne(x.num);
    var r := Mul(x, y);
    var g2 := Gcd(x.num, y.den);
    assert g2 == 1;
    assert Value(r) * Gcd(x.den, n) as real == Value(x) * Value(y) * g2 as real;
    RealScale(Value(r), Value(x), Value(y), Gcd(x.den, n) as real, n as real);
  }

  lemma RealScale(vr: real, vx: real, vy: real, g: real, m: real)
    requires vr * g == vx * vy * 1.0 && vy == m
    ensures vr * g == vx * m
    ensures g == 1.0 ==> vr == vx * m
  {
  }

  /** div(long): this / new Rational(n). */
  function DivLong(x: Rat, n: int): (r: Result<Rat>)
    requires Valid(x)
    ensures x.num == 0 ==> r == Ok(Zero)
    ensures x.num != 0 ==> (r == Err(IllegalArgument) <==> n == 0)
    ensures r.Ok? && x.num != 0 && n != 0 ==>
      Valid(r.value) &&
      Value(r.value) == (if n < 0 then -1.0 else 1.0) * (Value(x) / n as real) * Gcd(x.num, n) as real
    ensures r.Ok? && Reachable(x) ==> Reachable(r.value)
  {
    GcdOne(x.den);
    Div(x, FromLong(n))
  }

  // ---------------------------------------------------------------------
  // Where the code departs from its documentation

  /** (1/2).mul(2) is 1/2, not 1: the gcd of 2 and 2 cancels the factor 2
      from the multiplier only. */
  lemma MulHalfByTwo()
    ensures Mul(Rat(1, 2), FromLong(2)) == Rat(1, 2)
    ensures Value(Mul(Rat(1, 2), FromLong(2))) != Value(Rat(1, 2)) * Value(FromLong(2))
  {
    assert Gcd(2, 2) == 2;
    assert Gcd(1, 1) == 1;
  }

  /** (2/1).mul(1/4) is the non-canonical 2/2. */
  lemma MulNotCanonical()
    ensures Mul(Rat(2, 1), Rat(1, 4)) == Rat(2, 2)
    ensures Canonical(Rat(2, 1)) && Canonical(Rat(1, 4)) && !Canonical(Rat(2, 2))
  {
    assert Gcd(1, 1) == 1;
    assert Gcd(2, 4) == 2;
    assert Gcd(2, 2) == 2;
    GcdOne(2);
    GcdOne(4);
  }

  /** mul is not commutative: (1/2)*(2/1) is 1/2 but (2/1)*(1/2) is 2/1. */
  lemma MulNotCommutative()
    ensures Mul(Rat(1, 2), Rat(2, 1)) == Rat(1, 2)
    ensures Mul(Rat(2, 1), Rat(1, 2)) == Rat(2, 1)
  {
    assert Gcd(2, 2) == 2;
    assert Gcd(1, 1) == 1;
  }

  /** 1.div(-1) is -1/-1: the denominator already carries the divisor's sign
      and mul(-1) flips the numerator again, so the value is 1, not -1. */
  lemma DivByNegative()
    ensures Div(FromLong(1), FromLong(-1)) == Ok(Rat(-1, -1))
    ensures Value(Rat(-1, -1)) == 1.0
  {
    GcdOne(1);
    GcdOne(-1);
    QuotExact(1, 1);
    QuotExact(-1, 1);
    MulByMinusOne(Rat(1, -1));
  }

  /** (1/2).div(2).mul(2) is 1/4, not 1/2. */
  lemma DivThenMulNotInverse()
    ensures Div(Rat(1, 2), FromLong(2)) == Ok(Rat(1, 4))
    ensures Mul(Rat(1, 4), FromLong(2)) == Rat(1, 4)
  {
    assert Gcd(2, 1) == 1;
    assert Gcd(1, 2) == 1;
    assert Gcd(4, 2) == 2;
    assert Gcd(1, 1) == 1;
  }
}

=== FILE: real_facts.dfy ===
/** Facts about the exact value n/d of an integer pair, as a Dafny real. */
module RealFacts {

  /** The quotient n/d. It is sealed behind a fuel argument, like Gcd and
      Quot: the lemmas below expose it through FracIs, and every other
      proof reasons about values through them, so that the solver does not
      meet a real division in every context that mentions a value. */
  function Frac(n: int, d: int): real
    requires d != 0
  {
    FracAt(n, d, 1)
  }

  function FracAt(n: int, d: int, k: nat): real
    requires d != 0
  {
    if k == 0 then n as real / d as real else FracAt(n, d, 0)
  }

  lemma FracIs(n: int, d: int)
    requires d != 0
    ensures Frac(n, d) == n as real / d as real
  {
    assert FracAt(n, d, 0) == n as real / d as real;
  }

  lemma IntMulReal(a: int, b: int)
    ensures (a * b) as real == a as real * b as real
  {
  }

  /** Two fractions are equal exactly when their cross products are. */
  lemma FracCross(a: int, b: int, c: int, d: int)
    requires b != 0 && d != 0
    ensures Frac(a, b) == Frac(c, d) <==> a * d == c * b
  {
    FracIs(a, b);
    FracIs(c, d);
    IntMulReal(a, d);
    IntMulReal(c, b);
    var x, y := Frac(a, b), Frac(c, d);
    assert x * b as real == a as real;
    assert y * d as real == c as real;
    assert (a * d) as real == x * (b as real * d as real);
    assert (c * b) as real == y * (b as real * d as real);
    assert b as real * d as real != 0.0;
  }

  lemma FracAdd(a: int, b: int, c: int, d: int)
    requires b != 0 && d != 0
    ensures Frac(a * d + b * c, b * d) == Frac(a, b) + Frac(c, d)
  {
    FracIs(a, b);
    FracIs(c, d);
    FracIs(a * d + b * c, b * d);
    IntMulReal(b, d);
    IntMulReal(a, d);
    IntMulReal(b, c);
    var x, y := Frac(a, b), Frac(c, d);
    assert x * b as real == a as real;
    assert y * d as real == c as real;
    var bd := b as real * d as real;
    assert (a * d + b * c) as real == (x + y) * bd;
    assert bd != 0.0;
  }

  lemma FracMul(a: int, b: int, c: int, d: int)
    requires b != 0 && d != 0
    ensures Frac(a * c, b * d) == Frac(a, b) * Frac(c, d)
  {
    FracIs(a, b);
    FracIs(c, d);
    FracIs(a * c, b * d);
    IntMulReal(b, d);
    IntMulReal(a, c);
    var x, y := Frac(a, b), Frac(c, d);
    assert x * b as real == a as real;
    assert y * d as real == c as real;
    var bd := b as real * d as real;
    assert (a * c) as real == (x * y) * bd;
    assert bd != 0.0;
  }

  lemma FracNeg(n: int, d: int)
    requires d != 0
    ensures Frac(-n, d) == -Frac(n, d)
  {
    FracIs(n, d);
    FracIs(-n, d);
  }

  lemma FracSign(n: int, d: int)
    requires d > 0
    ensures Frac(n, d) < 0.0 <==> n < 0
    ensures Frac(n, d) == 0.0 <==> n == 0
    ensures Frac(n, d) > 0.0 <==> n > 0
  {
    FracIs(n, d);
    assert Frac(n, d) * d as real == n as real;
  }

  lemma FracZero(n: int, d: int)
    requires d != 0
    ensures Frac(n, d) == 0.0 <==> n == 0
  {
    FracIs(n, d);
    assert Frac(n, d) * d as real == n as real;
  }

  /** For a non-negative fraction, integer division is the floor. */
  lemma FracFloor(n: int, d: int)
    requires n >= 0 && d > 0
    ensures Frac(n, d).Floor == n / d
  {
    FracIs(n, d);
    var q, r := n / d, n % d;
    assert n == d * q + r && 0 <= r < d;
    IntMulReal(d, q);
    var x := Frac(n, d);
    assert x * d as real == n as real;
    assert (q as real) * d as real <= n as real < (q + 1) as real * d as real;
    assert q as real <= x < (q + 1) as real;
  }

  /** (a p)/(b q) * g1 == (a/b) * ((g1 p)/(g2 q)) * g2. */
  lemma FracCrossCancel(a: int, b: int, p: int, q: int, g1: int, g2: int)
    requires b != 0 && q != 0 && g2 != 0
    ensures b * q != 0 && g2 * q != 0
    ensures Frac(a * p, b * q) * g1 as real == Frac(a, b) * Frac(g1 * p, g2 * q) * g2 as real
  {
    FracIs(a * p, b * q);
    FracIs(a, b);
    FracIs(g1 * p, g2 * q);
    IntMulReal(a, p);
    IntMulReal(b, q);
    IntMulReal(g1, p);
    IntMulReal(g2, q);
    CrossCancel(a as real, b as real, p as real, q as real, g1 as real, g2 as real);
  }

  lemma CrossCancel(a: real, b: real, p: real, q: real, g1: real, g2: real)
    requires b != 0.0 && q != 0.0 && g2 != 0.0
    ensures (a * p) / (b * q) * g1 == (a / b) * ((g1 * p) / (g2 * q)) * g2
  {
    var l := (a * p) / (b * q);
    var m := (g1 * p) / (g2 * q);
    assert l * (b * q) == a * p;
    assert m * (g2 * q) == g1 * p;
    assert (a / b) * b == a;
    assert (a / b) * m * g2 * (b * q) == a * (g1 * p) by {
      calc {
        (a / b) * m * g2 * (b * q);
        ((a / b) * b) * (m * (g2 * q));
        a * (g1 * p);
      }
    }
    assert l * g1 * (b * q) == a * (g1 * p) by {
      calc {
        l * g1 * (b * q);
        (l * (b * q)) * g1;
        (a * p) * g1;
      }
    }
  }
}
